=== FILE: README.md ===
# Black Duck Hub Jenkins plugin — a Dafny model of the scan post-build actions

This project models the core of the Black Duck Hub plugin for Jenkins:

- the iScan post-build action (`PostBuildHubiScan`): configuration checks,
  choice of the iScan CLI, resolution of the configured scan targets under the
  build workspace, the workspace check, the CLI command line, classification
  of the CLI output, lookup of the CLI's latest log per target, mapping of the
  scans to a Hub project release, and the build result the action leaves;
- the failure-condition step (`HubCommonFailureStep.checkFailureConditions`):
  the build result decided from the Hub's policy status of the bill of
  materials, and the policy counts handed to the build's variables;
- the parts of the Hub scan post-build action (`PostBuildHubScan`) around the
  common scan step: the exclusion patterns, the lazily defaulted verbose flag,
  and `perform`, which never fails the build itself.

Everything the plugin asks of Jenkins, the build node, the scan CLI or the Hub
server is an input of the model: file-system facts (`Targets.FileFacts`), the
node's channel, the CLI output, the log-folder listings, the host name, the
Hub's answers (`Mapping.Catalog`, `Failure.PolicyLookup`) and the Java home.
A Java exception is an `Err` of `Common.Result`, carrying the source's message;
a Java `null` is `None` of `Common.Option` where the code tests for it, and a
null string is otherwise the empty string. The code tests its strings with
the plexus-utils `StringUtils.isEmpty`, which trims before it tests, so null,
"" and a string of white space alike count as empty; the model writes that
test as `Strings.IsBlank`. The one string compared with `equals` that may be
null, the configured installation name, is listed under "Left out".

Modules, one per file: `Common` (optional values, results, exceptions, build
results), `Strings` (the `java.lang.String` operations used, decimal
printing and parsing), `Targets` (target resolution and the workspace check),
`Command` (memory default, command line, output markers), `Logs` (file names,
log folder, log time stamps, latest log), `Mapping` (`doScanMapping`),
`Config` (`validateConfiguration`, `getIScanCLI`), `IScan` (`runScan`,
`perform`), `Failure` (`checkFailureConditions`), `HubScan`
(`PostBuildHubScan`).

### Behaviour of the code worth knowing

The model keeps these properties of the code, some of which a reader might
not expect:

- a scan target that is empty or only white space scans the working
  directory; any other target is used as written, spaces included: one
  leading separator decides whether a "/" is inserted, and one trailing "/"
  or "\" is dropped;
- a duplicate project id, a release id, a project or release name, a server
  URL or a credentials id of white space alone counts as absent;
- an exception from launching the CLI, reading the build's environment or
  waiting for the process, and one from computing a canonical path or asking
  the node for a file's size or existence, ends the attempt, and `perform`
  turns it into UNSTABLE; so does one from the log lookup after a successful
  run: listing the CLI's directory or the log folder, looking up the host
  name, or computing the chosen log's canonical path;
- the output check marks the build unstable only when the output contains
  neither "Finished in" nor "with status SUCCESS" (either marker alone is
  enough), and an "ERROR" in the output plays no part;
- a log name that contains the target's file name and the host name but has
  no parseable time stamp is not skipped: the exception leaves `runScan`, and
  `perform` turns it into UNSTABLE; a CLI directory with no entry containing
  "log" fails the same way once there is a target to look up;
- a failed mapping (unknown or ambiguous project, unknown release) also makes
  the build UNSTABLE, and the mapping runs even after the scan marked the
  build UNSTABLE;
- no process starter means nothing is run and nothing is marked;
- the workspace check is the one written at `PostBuildHubiScan.java:612-615`,
  which does not keep every target inside the workspace (see Findings);
- without a channel to the node, the target is checked and reported under
  the name `java.io.File` gives it, with runs of "/" collapsed and a trailing
  "/" dropped.

## Model

| member | source | states |
|---|---|---|
| Command.EffectiveMemory | src/main/java/com/blackducksoftware/integration/hub/jenkins/PostBuildHubiScan.java:67-79 | a configured memory of 0 becomes the 256 MB default, any other value is kept, and the result is never 0 |
| Command.EffectiveMemoryIdempotent | src/main/java/com/blackducksoftware/integration/hub/jenkins/PostBuildHubiScan.java:98-103 | getIScanMemory applied after the constructor's defaulting changes nothing |
| Command.MemoryFlag | src/main/java/com/blackducksoftware/integration/hub/jenkins/PostBuildHubiScan.java:349-353 | both branches of the memory test produce the same flag, "-Xmx" followed by the decimal memory and "m" |
| Command.BuildCommand | src/main/java/com/blackducksoftware/integration/hub/jenkins/PostBuildHubiScan.java:327-372 | the command has the eleven fixed entries in source order, then the port and dry-run options, then exactly the targets, and its length is the sum of these parts |
| Command.BuildCommandFlags | src/main/java/com/blackducksoftware/integration/hub/jenkins/PostBuildHubiScan.java:362-369 | "--port" is among the options exactly when the URL names a port, "--dryRun" exactly in test mode |
| Command.ReadBuildCommand | src/main/java/com/blackducksoftware/integration/hub/jenkins/PostBuildHubiScan.java:327-372 | reading the command back yields every setting it was built from (java home, memory, CLI, host, port, credentials, dry run, targets) whenever the first target does not look like a flag |
| Command.ClassifyOutput | src/main/java/com/blackducksoftware/integration/hub/jenkins/PostBuildHubiScan.java:388-390 | the build is marked unstable exactly when the output contains neither "Finished in" nor "with status SUCCESS" |
| Command.MarkerAnywhereFindsLogs | src/main/java/com/blackducksoftware/integration/hub/jenkins/PostBuildHubiScan.java:388 | a marker anywhere in the output leads on to the log lookup, even when "ERROR: timeout" follows it |
| Command.ShortOutputIsUnstable | src/main/java/com/blackducksoftware/integration/hub/jenkins/PostBuildHubiScan.java:388-389 | output shorter than the shorter marker always marks the build unstable |
| Strings.RemoveAll | src/main/java/com/blackducksoftware/integration/hub/jenkins/PostBuildHubiScan.java:432 | String.replace with "" never lengthens the string and leaves a string without the pattern unchanged |
| Strings.ContainsInfix | src/main/java/com/blackducksoftware/integration/hub/jenkins/PostBuildHubiScan.java:388 | String.contains finds a needle wherever it is placed |
| Strings.IntToStringRoundTrip | src/main/java/com/blackducksoftware/integration/hub/jenkins/PostBuildHubiScan.java:364 | Integer.toString of any int, as used for the port, reads back as that int |
| Targets.ResolveTarget | src/main/java/com/blackducksoftware/integration/hub/jenkins/PostBuildHubiScan.java:177-204 | a resolved target starts with the working directory; a target that is empty or only white space is the working directory; any other is the working directory and a "/" unless the target starts with a separator, followed by the target as written with at most its last separator removed |
| Targets.ResolveTargets | src/main/java/com/blackducksoftware/integration/hub/jenkins/PostBuildHubiScan.java:176-204 | one target per job, in job order, each resolved on its own |
| Targets.BlankTargetIsWorkspace | src/main/java/com/blackducksoftware/integration/hub/jenkins/PostBuildHubiScan.java:178-179 | a job whose target is empty or only white space scans the working directory, whatever its position |
| Targets.WhiteSpaceInTargets | src/main/java/com/blackducksoftware/integration/hub/jenkins/PostBuildHubiScan.java:178-198 | the target "  " is the working directory, while " src " is kept with its spaces |
| Targets.OnlyOneTrailingSeparatorDropped | src/main/java/com/blackducksoftware/integration/hub/jenkins/PostBuildHubiScan.java:183-193 | a target ending in "//" keeps one trailing "/" |
| Targets.ResolveLeadingAndTrailingSlash | src/main/java/com/blackducksoftware/integration/hub/jenkins/PostBuildHubiScan.java:182-184 | workspace "/ws" and target "/src/" give "/ws/src" |
| Targets.ValidateScanTargets | src/main/java/com/blackducksoftware/integration/hub/jenkins/PostBuildHubiScan.java:602-625 | true exactly when, for every target, the canonical path (with a channel), the size and the existence test all answer and the workspace and existence tests pass; otherwise the exception of the first failing target, in the order canonical path, size, workspace test, existence call, missing file |
| Targets.SmallOutsiderRefused | src/main/java/com/blackducksoftware/integration/hub/jenkins/PostBuildHubiScan.java:612-615 | a path that neither equals nor contains the working directory and whose file is no larger than the directory string is long is refused as outside the workspace |
| Targets.CanonicalFailureStops | src/main/java/com/blackducksoftware/integration/hub/jenkins/PostBuildHubiScan.java:605-607 | a target whose canonical path cannot be computed ends the check with that exception, whatever follows it |
| Targets.NormalizePath | src/main/java/com/blackducksoftware/integration/hub/jenkins/PostBuildHubiScan.java:605-610 | the path java.io.File keeps for a target when no channel is available: no run of separators, no trailing separator except for "/", a path already in that form unchanged, such a path with one trailing "/" is that path without it, and empty only for the empty path |
| Targets.CollapseDoubleSlash | src/main/java/com/blackducksoftware/integration/hub/jenkins/PostBuildHubiScan.java:605-610 | collapsing separators gives the same path for "x//y" as for "x/y" |
| Targets.CollapseAppend | src/main/java/com/blackducksoftware/integration/hub/jenkins/PostBuildHubiScan.java:605-610 | a character that makes no double separator is kept after the collapsed path |
| Targets.NormalizeDoubleSlash | src/main/java/com/blackducksoftware/integration/hub/jenkins/PostBuildHubiScan.java:605-610 | "x//y" normalises to the same path as "x/y" |
| Targets.NormalizeTrailingSlash | src/main/java/com/blackducksoftware/integration/hub/jenkins/PostBuildHubiScan.java:605-610 | a non-empty "p/" normalises to the same path as "p" |
| Targets.NormalizeIdempotent | src/main/java/com/blackducksoftware/integration/hub/jenkins/PostBuildHubiScan.java:605-610 | normalising a path twice is normalising it once |
| Targets.MissingTargetReportedNormalised | src/main/java/com/blackducksoftware/integration/hub/jenkins/PostBuildHubiScan.java:610-617 | without a channel, a missing target "/ws/src/" is reported as "/ws/src" |
| Targets.LargeFileOutsideWorkspaceAccepted | src/main/java/com/blackducksoftware/integration/hub/jenkins/PostBuildHubiScan.java:612-615 | as written, "<ws>/../../../../../etc/passwd" (canonical "/etc/passwd", 4096 bytes) is accepted, while the corrected check refuses it |
| Targets.ContainedElsewhereAccepted | src/main/java/com/blackducksoftware/integration/hub/jenkins/PostBuildHubiScan.java:613 | as written, a link whose canonical path is "/backup<ws>" is accepted because it contains the workspace string, while the corrected check refuses it |
| Targets.ValidateScanTargetsConfined | src/main/java/com/blackducksoftware/integration/hub/jenkins/PostBuildHubiScan.java:602-625 | the corrected check: true exactly when every canonical target is the working directory or below it and exists; otherwise the first failing target's exception |
| Targets.ConfinedTargetsStayInWorkspace | src/main/java/com/blackducksoftware/integration/hub/jenkins/PostBuildHubiScan.java:170-172 | every target the corrected check accepts canonicalises to the working directory or a path below it |
| Logs.FileName | src/main/java/com/blackducksoftware/integration/hub/jenkins/PostBuildHubiScan.java:392-393 | File.getName of a target contains no separator |
| Logs.FileNameOfChild | src/main/java/com/blackducksoftware/integration/hub/jenkins/PostBuildHubiScan.java:392-393 | the name of "<dir>/<name>" is the name |
| Logs.LogFolder | src/main/java/com/blackducksoftware/integration/hub/jenkins/PostBuildHubiScan.java:395-402 | null exactly when no entry next to the CLI contains "log"; otherwise the last entry that does |
| Logs.LogTime | src/main/java/com/blackducksoftware/integration/hub/jenkins/PostBuildHubiScan.java:430-438 | any time read from a log name is a valid calendar time |
| Logs.ParseFormat | src/main/java/com/blackducksoftware/integration/hub/jenkins/PostBuildHubiScan.java:436-438 | every valid time is read back from its "yyyy-MM-dd'T'HHmmss.SSS" form |
| Logs.FormatParse | src/main/java/com/blackducksoftware/integration/hub/jenkins/PostBuildHubiScan.java:436-438 | the parser accepts only the printed form of the time it returns |
| Logs.IsAfterStrictOrder | src/main/java/com/blackducksoftware/integration/hub/jenkins/PostBuildHubiScan.java:452 | isAfter is irreflexive, asymmetric, transitive and total on distinct times |
| Logs.WrittenLogIsCandidate | src/main/java/com/blackducksoftware/integration/hub/jenkins/PostBuildHubiScan.java:425-427 | a log named "<host>-<file>-<time><suffix>" is looked at for that target on that host |
| Logs.WrittenLogTime | src/main/java/com/blackducksoftware/integration/hub/jenkins/PostBuildHubiScan.java:430-438 | such a log yields its own time when the prefix does not recur |
| Logs.Classify | src/main/java/com/blackducksoftware/integration/hub/jenkins/PostBuildHubiScan.java:425-427 | a log name is ignored exactly when it lacks the file name or the host name |
| Logs.ScanKeepsBest | src/main/java/com/blackducksoftware/integration/hub/jenkins/PostBuildHubiScan.java:424-459 | the loop fails exactly when a later entry is unreadable and otherwise ends holding the latest entry seen |
| Logs.ScanStopsAtFirstUnreadable | src/main/java/com/blackducksoftware/integration/hub/jenkins/PostBuildHubiScan.java:424-458 | the loop's exception is that of the first unreadable entry from where it starts |
| Logs.LatestLogSpec | src/main/java/com/blackducksoftware/integration/hub/jenkins/PostBuildHubiScan.java:420-461 | getLogFileForScan fails exactly when a looked-at name has no readable time, and then with the exception of the first such name; returns null exactly when no name is looked at; and otherwise returns a looked-at log with the greatest time, the first one listed on ties |
| Logs.LatestLogOnHost | src/main/java/com/blackducksoftware/integration/hub/jenkins/PostBuildHubiScan.java:423-428 | with a host name, the search is getLogFileForScan's; when the host lookup throws, its exception leaves exactly when some listed name contains the file name, and null is returned otherwise; a chosen log is a listed candidate |
| Logs.NewerLogChosen | src/main/java/com/blackducksoftware/integration/hub/jenkins/PostBuildHubiScan.java:441-455 | of two logs for the same target and host the newer is chosen, the first on equal times |
| Mapping.ResolveProject | src/main/java/com/blackducksoftware/integration/hub/jenkins/PostBuildHubiScan.java:235-248 | a duplicate id that is not blank is used as is; otherwise a failing project request is passed on, and the project resolves exactly when one id matches the name, with the two messages of the source for none or several |
| Mapping.DoScanMapping | src/main/java/com/blackducksoftware/integration/hub/jenkins/PostBuildHubiScan.java:229-274 | the project lookup is made exactly when the duplicate id is blank, and an unresolved project ends the run after it; a resolved project is asked for the release next, and the mapping then succeeds exactly when a release id that is not blank is found, the scan-id list is not null and linking does not fail, naming the release the Hub returned for the configured name; after a success the scan locations were asked for, and scans were linked exactly when the list was non-empty, with those ids and as the last request |
| Mapping.MappingStopsAtFailure | src/main/java/com/blackducksoftware/integration/hub/jenkins/PostBuildHubiScan.java:249-267 | after the project resolves, a failing release request, a blank release id, a failing or null scan-id answer, or a failing link ends the run with its exception, after exactly the requests made up to it |
| Mapping.MappingLinksReportedScans | src/main/java/com/blackducksoftware/integration/hub/jenkins/PostBuildHubiScan.java:256-266 | scans are linked exactly when the project and a release resolve and the Hub reports a non-empty list of scan ids for them |
| Mapping.DuplicateIdSkipsLookup | src/main/java/com/blackducksoftware/integration/hub/jenkins/PostBuildHubiScan.java:235-237 | with a duplicate id that is not blank, the first request is the release lookup in that project and no project lookup is made |
| Mapping.AmbiguousNameRefused | src/main/java/com/blackducksoftware/integration/hub/jenkins/PostBuildHubiScan.java:243-245 | two projects with the same name are never resolved to one of them |
| Mapping.SecondRunMapsNothing | src/main/java/com/blackducksoftware/integration/hub/jenkins/PostBuildHubiScan.java:256-272 | a second run against a Hub that answers the same for project and release and reports no unmapped scans for the release the first run found links nothing and ends without error |
| Config.ValidateConfiguration | src/main/java/com/blackducksoftware/integration/hub/jenkins/PostBuildHubiScan.java:567-585 | true exactly when an installation, a scan job and, for an unconfigured plugin, a URL and a credentials id that are not blank are present; otherwise the first missing item's exception and message |
| Config.ConfigurationChecksInOrder | src/main/java/com/blackducksoftware/integration/hub/jenkins/PostBuildHubiScan.java:567-585 | a missing installation is reported before anything else; a configured plugin is never asked for URL or credentials |
| Config.LastSelected | src/main/java/com/blackducksoftware/integration/hub/jenkins/PostBuildHubiScan.java:525-544 | none exactly when no installation has the configured name |
| Config.GetIScanCLI | src/main/java/com/blackducksoftware/integration/hub/jenkins/PostBuildHubiScan.java:522-551 | the CLI of the last installation with the configured name when no entry is null and every such installation has its CLI; otherwise the exception of the first null entry or selected installation without CLI, and the select-installation error only when there is none and no installation has the name |
| Config.FindCli | src/main/java/com/blackducksoftware/integration/hub/jenkins/PostBuildHubiScan.java:524-550 | the loop of getIScanCLI from any entry on meets the same promise, given what the entries before it established |
| IScan.LogFor | src/main/java/com/blackducksoftware/integration/hub/jenkins/PostBuildHubiScan.java:391-412 | the exception of the first failing call, in source order: listing the CLI directory, no log folder (a null-pointer exception), listing the log folder, the search with its host lookup, the chosen log's canonical path; otherwise the canonical path of the log the search picks, none when it picks none |
| IScan.LogsFor | src/main/java/com/blackducksoftware/integration/hub/jenkins/PostBuildHubiScan.java:391-413 | one reported log per target, in order, unless some target's lookup fails, in which case the first failure |
| IScan.RunScan | src/main/java/com/blackducksoftware/integration/hub/jenkins/PostBuildHubiScan.java:320-418 | a refused target or a malformed URL stops the scan before the CLI runs, and an exception from the launch ends it after them; the command is the one built from the settings and targets; the build is marked unstable exactly when the CLI ran and showed no marker; after a marker the logs are those of the lookup, whose failure is runScan's |
| IScan.RunScanCommand | src/main/java/com/blackducksoftware/integration/hub/jenkins/PostBuildHubiScan.java:325-372 | the command launched carries the effective memory, the Hub host and exactly the targets, and reads back as the settings it was built from |
| IScan.RunScanCommandEndsWithTargets | src/main/java/com/blackducksoftware/integration/hub/jenkins/PostBuildHubiScan.java:370-372 | the last entries of the command are the targets, one by one |
| IScan.RunScanTargetsAccepted | src/main/java/com/blackducksoftware/integration/hub/jenkins/PostBuildHubiScan.java:324 | every target of a scan that ran passed validateScanTargets |
| IScan.Attempt | src/main/java/com/blackducksoftware/integration/hub/jenkins/PostBuildHubiScan.java:162-215 | the try block succeeds exactly when configuration, workspace, Java home, CLI, runScan on the resolved targets and, when project and release are both named by something other than white space, the mapping all succeed; otherwise it ends with the exception of the first failing step in that order, a null workspace being a null-pointer exception |
| IScan.Perform | src/main/java/com/blackducksoftware/integration/hub/jenkins/PostBuildHubiScan.java:157-227 | always returns true; a build that is not successful is left as it is; a successful build ends SUCCESS exactly when nothing was thrown and runScan did not mark it unstable, and UNSTABLE otherwise |
| IScan.PerformScanFromAttempt | src/main/java/com/blackducksoftware/integration/hub/jenkins/PostBuildHubiScan.java:160-220 | a reported scan means the build was successful and the try block completed with that scan |
| IScan.PerformScanRan | src/main/java/com/blackducksoftware/integration/hub/jenkins/PostBuildHubiScan.java:169-205 | a reported scan was run by runScan on the resolved job targets with the CLI getIScanCLI chose, so workspace, Java home and installations were all present |
| IScan.ResolvedTargetsOnCommand | src/main/java/com/blackducksoftware/integration/hub/jenkins/PostBuildHubiScan.java:176-205 | a command runScan built over the resolved job targets ends with each job's resolution, in job order, under the working directory |
| IScan.ScannedTargetsFromJobs | src/main/java/com/blackducksoftware/integration/hub/jenkins/PostBuildHubiScan.java:176-205 | every target on the launched command starts with the workspace path and is the resolution of the job in the same position |
| IScan.ScannedTargetsAccepted | src/main/java/com/blackducksoftware/integration/hub/jenkins/PostBuildHubiScan.java:205 | every target on the launched command passed the workspace check |
| IScan.UnstableScanStillMapped | src/main/java/com/blackducksoftware/integration/hub/jenkins/PostBuildHubiScan.java:205-214 | an output without markers leaves the build UNSTABLE, and the scans are still mapped when project and release are named |
| IScan.ErrorOutputMarksUnstable | src/main/java/com/blackducksoftware/integration/hub/jenkins/PostBuildHubiScan.java:388-389 | an instance of `Command.ShortOutputIsUnstable`: the output "ERROR" marks the build unstable |
| Failure.ResultForViolation | src/main/java/com/blackducksoftware/integration/hub/jenkins/failure/HubCommonFailureStep.java:81-86 | UNSTABLE exactly for the UNSTABLE state, FAILURE exactly for the FAILURE state, SUCCESS for anything else including no state |
| Failure.LastCount | src/main/java/com/blackducksoftware/integration/hub/jenkins/failure/HubCommonFailureStep.java:127-140 | no value exactly when no count has the state |
| Failure.LastCountIsLast | src/main/java/com/blackducksoftware/integration/hub/jenkins/failure/HubCommonFailureStep.java:127-140 | the value found is that of a count of the state with no later count of the state |
| Failure.Tally | src/main/java/com/blackducksoftware/integration/hub/jenkins/failure/HubCommonFailureStep.java:127-140 | the count loop, from any position, ends with each field holding the last count of its own state |
| Failure.ContributorOf | src/main/java/com/blackducksoftware/integration/hub/jenkins/failure/HubCommonFailureStep.java:123-141 | a null or empty count list leaves every field unset; otherwise each field holds the last count of its state |
| Failure.CheckFailureConditions | src/main/java/com/blackducksoftware/integration/hub/jenkins/failure/HubCommonFailureStep.java:69-155 | returns true whenever it returns; throws exactly for a null flag or a null state once a status was read, both as a null-pointer exception, or for an uncaught fault, which leaves as itself; a switched-off step, a missing policy URL or a caught fault mark UNSTABLE; a dry run or no status change nothing; with a status, the configured result is set exactly on IN_VIOLATION and the counts are reported |
| Failure.FailureOnlyOnConfiguredViolation | src/main/java/com/blackducksoftware/integration/hub/jenkins/failure/HubCommonFailureStep.java:81-121 | FAILURE is asked for only when configured and in violation, SUCCESS only when configured so, and nothing else than SUCCESS, UNSTABLE or FAILURE is ever asked for |
| Failure.NoViolationKeepsResult | src/main/java/com/blackducksoftware/integration/hub/jenkins/failure/HubCommonFailureStep.java:119-141 | a clean or overridden bill of materials leaves the result alone while its counts are still reported |
| Failure.LaterCountWins | src/main/java/com/blackducksoftware/integration/hub/jenkins/failure/HubCommonFailureStep.java:127-140 | an instance of `Failure.ContributorOf` for the three-count list IN_VIOLATION a, NOT_IN_VIOLATION n, IN_VIOLATION b, over all values: the later IN_VIOLATION count replaces the earlier one and the other states are left alone |
| HubScan.GetExclusionPatterns | src/main/java/com/blackducksoftware/integration/hub/jenkins/PostBuildHubScan.java:220-231 | null exactly for null; otherwise one pattern per exclusion, in order |
| HubScan.ExclusionPatternsRoundTrip | src/main/java/com/blackducksoftware/integration/hub/jenkins/PostBuildHubScan.java:220-231 | the exclusions are rebuilt from the patterns: nothing dropped, added or reordered |
| HubScan.SetVerbose | src/main/java/com/blackducksoftware/integration/hub/jenkins/PostBuildHubScan.java:101-103 | the flag holds the value set |
| HubScan.IsVerbose | src/main/java/com/blackducksoftware/integration/hub/jenkins/PostBuildHubScan.java:105-110 | an unset flag reads true and is set to true; a set flag reads its value and is unchanged |
| HubScan.VerboseReadStable | src/main/java/com/blackducksoftware/integration/hub/jenkins/PostBuildHubScan.java:101-110 | reading twice gives the same answer and state; a value set is the value read |
| HubScan.Perform | src/main/java/com/blackducksoftware/integration/hub/jenkins/PostBuildHubScan.java:192-206 | always returns true, leaves the flag as isVerbose leaves it (an unset flag set to true, a set flag unchanged), and logs exactly what the scan step threw when given the verbose flag and the exclusion patterns |

## Findings

| source | as written | input that shows it | evidently intended | confidence | as-written member | corrected member |
|---|---|---|---|---|---|---|
| src/main/java/com/blackducksoftware/integration/hub/jenkins/PostBuildHubiScan.java:612-615 | a target is refused as outside the workspace only when `target.length() <= getWorkingDirectory().length()`, where `FilePath.length()` is the file's size in bytes, so any file larger than the workspace path is long passes | workspace "/var/lib/jenkins/workspace/job", target "<ws>/../../../../../etc/passwd", canonical "/etc/passwd", 4096 bytes | every target that canonicalises outside the workspace is refused (the comment at lines 170-171 says the working directory is there to keep users from scanning files outside the Jenkins directories) | not executed | Targets.LargeFileOutsideWorkspaceAccepted | Targets.ValidateScanTargetsConfined |
| src/main/java/com/blackducksoftware/integration/hub/jenkins/PostBuildHubiScan.java:613 | the path only has to contain the workspace string somewhere, not start with it | target "<ws>/link" canonicalising to "/backup/var/lib/jenkins/workspace/job", 10 bytes | the path is the workspace or lies below it | not executed | Targets.ContainedElsewhereAccepted | Targets.ConfinedTargetsStayInWorkspace |

The orchestration (`IScan.RunScan`, `IScan.Perform`) keeps the check as
written, since that is what the plugin runs; `Targets.ValidateScanTargetsConfined`
is the corrected check, with `Targets.ConfinedTargetsStayInWorkspace` proved
about it.

## Left out

- REST and proxy set-up (`setJenkinsHubIntRestService`, the Hub REST client): the Hub's answers, each an exception (`BDRestException`, `IOException`) or a value, are inputs (`Mapping.Catalog`); a malformed server URL while creating the client is not modelled.
- The two-second wait before mapping (`Thread.sleep`) and all console logging: no effect on results.
- `setJava` and the JDK lookup: the Java home is an input `Result`, an error standing for whatever `setJava` throws.
- `File.getCanonicalPath` (run in the master's JVM), `FilePath.length()` and `FilePath.exists()` (run on the build node): their answers, each a value or the exception the call throws, are inputs (`Targets.FileFacts`); without a channel the target is normalised as `java.io.File` does (`Targets.NormalizePath`), not canonicalised.
- Targets.NormalizePath: only the `java.io.File` form on a Unix master is modelled; the normalisation Jenkins' `FilePath` constructors apply on top (`\` separators, "." and ".." segments) is not, because the Jenkins core is not part of this model.
- `IScanInstallation.forNode` and the node-name test in `getIScanCLI`: the installations given are those already resolved for the node; whether the CLI file exists (`GetCLIExists`) is a field of each installation.
- `InetAddress.getLocalHost().getHostName()`: the host name, or the exception the lookup throws, is an input; the lookup is modelled as giving the same answer each time the loop asks.
- Joda-Time parsing: the time stamp is read strictly as fixed-width `yyyy-MM-dd'T'HHmmss.SSS`; Joda's leniency about field widths, time zones and daylight-saving gaps is not modelled, and the time is compared field by field in one zone.
- `File.getName` and the `java.io.File` normalisation of targets run in the Jenkins master's JVM; they are modelled with "/" as the only separator (a Unix master).
- Null elements of the scan-job array and of the exclusion array are not modelled (each would raise a null-pointer exception); null installation entries are.
- `build.getResult()` returning null (a null-pointer exception outside the try block of `perform`) is not modelled: the build result is always one of the five Jenkins results.
- Jenkins' `Run.setResult`, which only ever makes a result worse: `Failure.CheckFailureConditions` reports the result it asks for, not the one Jenkins keeps.
- The logger set-up, the server-info lookup, `getHubServicesFactory` and `checkHubSupport` in `checkFailureConditions`: their outcome is the input `Failure.PolicyLookup`; a `HubIntegrationException` while fetching the status is swallowed by the source and appears as `NoPolicyStatus`; a null `bomUpToDateAction` is not modelled.
- `BDCommonScanStep.runScan`, `getWorkingDirectory` and `isFailureConditionsConfigured` of `PostBuildHubScan` are not part of this model: `HubScan.Perform` takes the scan step as a function.
- HubScan.Perform: the exception a failing `build.getEnvironment` would throw is folded into the scan step's outcome.
- Failure.CheckFailureConditions: the exceptions it lets escape (I/O, encryption, illegal argument) carry no message.
- IScan.RunScan: the process environment and output stream handling of `ProcStarter` are not modelled; what the launch gave is an input: the exception from `build.getEnvironment`, the launch or `join`, None when no process starter was found, or the CLI's output.
- Config.GetIScanCLI: a null configured installation name is the empty string here, so it selects an installation named "", where Java's `equals` selects none; an installation whose own name is null (a null-pointer exception in Java) is not modelled.
- IScan.LogFor: the directory listings, the host name and the canonical path of the chosen log are inputs, each an answer or the exception its call throws; how the canonical path follows from the log's remote path is not modelled.

=== FILE: command.dfy ===
/** The scan CLI command line built by PostBuildHubiScan.runScan, the memory
    default of its constructor and getIScanMemory, and the classification of
    the CLI's output. */
module Command {
  import opened Common
  import opened Strings

  /** DEFAULT_MEMORY, in megabytes. */
  const DefaultMemory: Int32 := 256

  /** The constructor and getIScanMemory: a configured 0 means "not set" and
      is replaced by the default; any other value is kept. */
  function EffectiveMemory(configured: Int32): (m: Int32)
    ensures m != 0
    ensures configured != 0 ==> m == configured
    ensures configured == 0 ==> m == DefaultMemory
  {
    if configured == 0 then DefaultMemory else configured
  }

  /** Applying the default a second time (getIScanMemory after the
      constructor) changes nothing. */
  lemma EffectiveMemoryIdempotent(configured: Int32)
    ensures EffectiveMemory(EffectiveMemory(configured)) == EffectiveMemory(configured)
  {
  }

  /** The heap flag as runScan writes it: two branches that spell the same text. */
  function MemoryFlag(memory: Int32): (f: string)
    ensures f == "-Xmx" + IntToString(memory) + "m"
  {
    if memory != 256 then "-Xmx" + IntToString(memory) + "m"
    else "-Xmx" + IntToString(DefaultMemory) + "m"
  }

  /** java.net.URL.getPort(): -1 when the URL names no port. */
  type UrlPort = p: int | -1 <= p < 0x8000_0000

  /** The parts of the configured Hub URL the command uses. */
  datatype Url = Url(host: string, port: UrlPort)

  /** Everything the command line is built from. */
  datatype Invocation = Invocation(
    javaHome: string,
    memory: Int32,
    cliPath: string,
    url: Url,
    username: string,
    password: string,
    dryRun: bool,
    targets: seq<string>)

  const JavaSuffix := "/bin/java"
  const SilentFlag := "-Done-jar.silent=true"
  const PortOption := "--port"
  const DryRunOption := "--dryRun"

  function PortPart(url: Url): (r: seq<string>)
    ensures url.port == -1 ==> r == []
    ensures url.port != -1 ==> r == [PortOption, IntToString(url.port)]
  {
    if url.port != -1 then [PortOption, IntToString(url.port)] else []
  }

  function DryRunPart(dryRun: bool): (r: seq<string>)
    ensures dryRun <==> r == [DryRunOption]
    ensures !dryRun <==> r == []
  {
    if dryRun then [DryRunOption] else []
  }

  /** The command list of runScan, in the order the source adds its entries. */
  function BuildCommand(inv: Invocation): (cmd: seq<string>)
    ensures |cmd| == 11 + |PortPart(inv.url)| + |DryRunPart(inv.dryRun)| + |inv.targets|
    ensures cmd[..11] == [inv.javaHome + JavaSuffix, SilentFlag, "-jar", MemoryFlag(inv.memory), inv.cliPath,
                          "--host", inv.url.host, "--username", inv.username, "--password", inv.password]
    ensures cmd[11..|cmd| - |inv.targets|] == PortPart(inv.url) + DryRunPart(inv.dryRun)
    ensures cmd[|cmd| - |inv.targets|..] == inv.targets
  {
    var fixed := [inv.javaHome + JavaSuffix, SilentFlag, "-jar", MemoryFlag(inv.memory), inv.cliPath,
                  "--host", inv.url.host, "--username", inv.username, "--password", inv.password];
    var options := PortPart(inv.url) + DryRunPart(inv.dryRun);
    var cmd := fixed + options + inv.targets;
    assert cmd[..11] == fixed;
    assert cmd[11..|cmd| - |inv.targets|] == options;
    assert cmd[|cmd| - |inv.targets|..] == inv.targets;
    cmd
  }

  /** "--port" appears among the options exactly when the URL names a port,
      and "--dryRun" exactly in the integration-test mode. */
  lemma BuildCommandFlags(inv: Invocation)
    ensures var cmd := BuildCommand(inv);
      && ((PortOption in cmd[11..|cmd| - |inv.targets|]) <==> inv.url.port != -1)
      && ((DryRunOption in cmd[11..|cmd| - |inv.targets|]) <==> inv.dryRun)
  {
    var cmd := BuildCommand(inv);
    var options := PortPart(inv.url) + DryRunPart(inv.dryRun);
    assert cmd[11..|cmd| - |inv.targets|] == options;
    if inv.url.port != -1 {
      var s := IntToString(inv.url.port);
      assert IsDigit(s[0]);
      assert options[0] == PortOption;
    }
    if inv.dryRun {
      assert options[|options| - 1] == DryRunOption;
    }
  }

  // ------------------------------------------------------- reading it back

  /** The text between a known prefix and a known suffix. */
  function Between(s: string, prefix: string, suffix: string): (r: Option<string>)
    ensures r.Some? ==> s == prefix + r.value + suffix
  {
    if |prefix| + |suffix| <= |s| && s[..|prefix|] == prefix && s[|s| - |suffix|..] == suffix then
      var mid := s[|prefix|..|s| - |suffix|];
      assert s == s[..|prefix|] + mid + s[|s| - |suffix|..];
      Some(mid)
    else None
  }

  lemma BetweenOf(prefix: string, mid: string, suffix: string)
    ensures Between(prefix + mid + suffix, prefix, suffix) == Some(mid)
  {
    var s := prefix + mid + suffix;
    assert s[..|prefix|] == prefix;
    assert s[|s| - |suffix|..] == suffix;
    assert s[|prefix|..|s| - |suffix|] == mid;
  }

  /** The optional "--port <n>" and what follows it. */
  function ReadPort(rest: seq<string>): (r: (UrlPort, seq<string>))
  {
    if |rest| >= 2 && rest[0] == PortOption && ParseInt(rest[1]).Some? && 0 <= ParseInt(rest[1]).value < 0x8000_0000
    then (ParseInt(rest[1]).value, rest[2..])
    else (-1, rest)
  }

  /** The optional "--dryRun" and the targets that follow it. */
  function ReadDryRun(rest: seq<string>): (r: (bool, seq<string>))
  {
    if |rest| >= 1 && rest[0] == DryRunOption then (true, rest[1..]) else (false, rest)
  }

  /** The optional flags and the targets that follow the fixed part. */
  function ReadOptions(rest: seq<string>): (r: (UrlPort, bool, seq<string>))
  {
    var (port, afterPort) := ReadPort(rest);
    var (dry, targets) := ReadDryRun(afterPort);
    (port, dry, targets)
  }

  /** What the scan CLI reads from a command line of this shape: the inverse
      of BuildCommand. */
  function ReadCommand(cmd: seq<string>): (r: Option<Invocation>)
  {
    if |cmd| < 11 || cmd[1] != SilentFlag || cmd[2] != "-jar" || cmd[5] != "--host"
       || cmd[7] != "--username" || cmd[9] != "--password" then None
    else
      var home := Between(cmd[0], "", JavaSuffix);
      var mem := Between(cmd[3], "-Xmx", "m");
      if home.None? || mem.None? then None
      else
        var m := ParseInt(mem.value);
        if m.None? || !(-0x8000_0000 <= m.value < 0x8000_0000) then None
        else
          var (port, dry, targets) := ReadOptions(cmd[11..]);
          Some(Invocation(home.value, m.value, cmd[4], Url(cmd[6], port), cmd[8], cmd[10], dry, targets))
  }

  /** A first target that looks like one of the optional flags would be read
      as that flag. */
  predicate TargetsUnambiguous(targets: seq<string>) {
    targets == [] || (targets[0] != PortOption && targets[0] != DryRunOption)
  }

  lemma ReadPortOf(url: Url, rest: seq<string>)
    requires rest == [] || rest[0] != PortOption
    ensures ReadPort(PortPart(url) + rest) == (url.port, rest)
  {
    if url.port != -1 {
      IntToStringRoundTrip(url.port);
      var all := PortPart(url) + rest;
      assert all[0] == PortOption && all[1] == IntToString(url.port);
      assert all[2..] == rest;
    } else {
      assert PortPart(url) + rest == rest;
    }
  }

  lemma ReadDryRunOf(dryRun: bool, targets: seq<string>)
    requires TargetsUnambiguous(targets)
    ensures ReadDryRun(DryRunPart(dryRun) + targets) == (dryRun, targets)
  {
    if dryRun {
      assert (DryRunPart(dryRun) + targets)[1..] == targets;
    } else {
      assert DryRunPart(dryRun) + targets == targets;
    }
  }

  lemma ReadOptionsOf(url: Url, dryRun: bool, targets: seq<string>)
    requires TargetsUnambiguous(targets)
    ensures ReadOptions(PortPart(url) + DryRunPart(dryRun) + targets) == (url.port, dryRun, targets)
  {
    var afterPort := DryRunPart(dryRun) + targets;
    assert PortPart(url) + DryRunPart(dryRun) + targets == PortPart(url) + afterPort;
    assert afterPort == [] || afterPort[0] != PortOption;
    ReadPortOf(url, afterPort);
    ReadDryRunOf(dryRun, targets);
  }

  /** The eleven fixed entries read back as the java home and the memory. */
  lemma ReadFixedPart(inv: Invocation)
    ensures var cmd := BuildCommand(inv);
      && |cmd| >= 11
      && cmd[1] == SilentFlag && cmd[2] == "-jar" && cmd[5] == "--host" && cmd[7] == "--username" && cmd[9] == "--password"
      && cmd[0] == inv.javaHome + JavaSuffix && cmd[3] == MemoryFlag(inv.memory)
      && cmd[4] == inv.cliPath && cmd[6] == inv.url.host && cmd[8] == inv.username && cmd[10] == inv.password
      && Between(cmd[0], "", JavaSuffix) == Some(inv.javaHome)
      && Between(cmd[3], "-Xmx", "m") == Some(IntToString(inv.memory))
  {
    var cmd := BuildCommand(inv);
    var fixed := cmd[..11];
    assert cmd[0] == fixed[0] == "" + inv.javaHome + JavaSuffix;
    BetweenOf("", inv.javaHome, JavaSuffix);
    assert cmd[3] == fixed[3] == "-Xmx" + IntToString(inv.memory) + "m";
    BetweenOf("-Xmx", IntToString(inv.memory), "m");
    assert cmd[1] == fixed[1] && cmd[2] == fixed[2] && cmd[4] == fixed[4] && cmd[5] == fixed[5];
    assert cmd[6] == fixed[6] && cmd[7] == fixed[7] && cmd[8] == fixed[8] && cmd[9] == fixed[9] && cmd[10] == fixed[10];
  }

  /** The command line carries exactly the settings it was built from. */
  lemma ReadBuildCommand(inv: Invocation)
    requires TargetsUnambiguous(inv.targets)
    ensures ReadCommand(BuildCommand(inv)) == Some(inv)
  {
    var cmd := BuildCommand(inv);
    ReadFixedPart(inv);
    IntToStringRoundTrip(inv.memory);
    assert cmd[11..] == PortPart(inv.url) + DryRunPart(inv.dryRun) + inv.targets;
    ReadOptionsOf(inv.url, inv.dryRun, inv.targets);
  }

  // ----------------------------------------------------- output classification

  const FinishedMarker := "Finished in"
  const SuccessMarker := "with status SUCCESS"

  /** What runScan does once the CLI has finished. */
  datatype ScanVerdict = MarkUnstable | FindLogs

  /** The build is marked unstable exactly when the output shows neither
      marker; either marker alone sends runScan on to the log lookup. */
  function ClassifyOutput(output: string): (v: ScanVerdict)
    ensures v == MarkUnstable <==> !Contains(output, FinishedMarker) && !Contains(output, SuccessMarker)
  {
    if !Contains(output, FinishedMarker) && !Contains(output, SuccessMarker) then MarkUnstable else FindLogs
  }

  /** A marker anywhere in the output is enough, and an "ERROR" after it does
      not change the verdict. */
  lemma MarkerAnywhereFindsLogs(before: string, after: string)
    ensures ClassifyOutput(before + FinishedMarker + after) == FindLogs
    ensures ClassifyOutput(before + SuccessMarker + after) == FindLogs
    ensures ClassifyOutput(before + SuccessMarker + after + "ERROR: timeout") == FindLogs
  {
    ContainsInfix(before, FinishedMarker, after);
    ContainsInfix(before, SuccessMarker, after);
    assert before + SuccessMarker + after + "ERROR: timeout" == before + SuccessMarker + (after + "ERROR: timeout");
    ContainsInfix(before, SuccessMarker, after + "ERROR: timeout");
  }

  /** Output too short to hold either marker always marks the build unstable. */
  lemma ShortOutputIsUnstable(output: string)
    requires |output| < |FinishedMarker|
    ensures ClassifyOutput(output) == MarkUnstable
  {
    if Contains(output, FinishedMarker) {
      ContainsNeedsRoom(output, FinishedMarker);
    }
    if Contains(output, SuccessMarker) {
      ContainsNeedsRoom(output, SuccessMarker);
    }
  }
}

=== FILE: common.dfy ===
/** Shared vocabulary of the plugin model: optional values, results that carry
    the exception a Java method would have thrown, Jenkins build results and
    32-bit Java integers. */
module Common {

  /** A Java reference that may be null. */
  datatype Option<+T> = None | Some(value: T)

  /** The exceptions the modelled code throws or lets escape. Each carries the
      message the source passes to its constructor, where the source gives one. */
  datatype Error =
    | IScanToolMissing(message: string)   // IScanToolMissingException
    | HubConfiguration(message: string)   // HubConfigurationException
    | IOError(message: string)            // java.io.IOException
    | PluginError(message: string)        // BDJenkinsHubPluginException
    | MalformedUrl                        // java.net.MalformedURLException
    | NullPointer                         // NullPointerException
    | IndexOutOfBounds                    // StringIndexOutOfBoundsException
    | IllegalArgument(message: string)    // IllegalArgumentException (Joda parse failure)
    | Uncaught(name: string)              // any other exception a step lets escape

  /** Either the value a Java method returned or the exception it threw.
      Failure-compatible, so `:-` propagates the exception like Java does. */
  datatype Result<+T> = Ok(value: T) | Err(error: Error) {
    predicate IsFailure() {
      Err?
    }

    function PropagateFailure<U>(): Result<U>
      requires Err?
    {
      Err(error)
    }

    function Extract(): T
      requires Ok?
    {
      value
    }
  }

  /** hudson.model.Result. */
  datatype BuildResult = Success | Unstable | Failure | NotBuilt | Aborted

  /** A Java `int`. */
  type Int32 = x: int | -0x8000_0000 <= x < 0x8000_0000
}

=== FILE: config.dfy ===
/** PostBuildHubiScan.validateConfiguration and getIScanCLI: the configuration
    checks made before anything runs, and the choice of the scan CLI. */
module Config {
  import opened Common
  import opened Strings
  import opened Targets

  /** An iScan installation as seen on the build node: its name, home
      directory, whether the CLI file exists there and the CLI's path. */
  datatype IScanInstallation = IScanInstallation(name: string, home: string, cliExists: bool, cliPath: string)

  /** The global Hub server settings (HubServerInfo). */
  datatype ServerInfo = ServerInfo(
    pluginConfigured: bool,
    serverUrl: string,
    credentialsId: string,
    username: string,
    password: string)

  const NoInstallationMessage := "Could not find an iScan Installation to use."
  const NoTargetsMessage := "Could not find any targets to scan."
  const NoUrlMessage := "No Hub URL was provided."
  const NoCredentialsMessage := "No credentials could be found to connect to the Hub."
  const SelectInstallationMessage := "You need to select which iScan installation to use."
  const CliMissingMessage := "Could not find the CLI file to execute at : '"

  /** The installation array is non-null, non-empty, and its first slot is set. */
  predicate ToolsPresent(tools: Option<seq<Option<IScanInstallation>>>) {
    tools.Some? && |tools.value| > 0 && tools.value[0].Some?
  }

  predicate ScansPresent(scans: Option<seq<ScanJob>>) {
    scans.Some? && |scans.value| > 0
  }

  /** A plugin that is not marked configured still passes when it has both a
      server URL and a credentials id. */
  predicate ServerUsable(info: ServerInfo) {
    info.pluginConfigured || (!IsBlank(info.serverUrl) && !IsBlank(info.credentialsId))
  }

  /** validateConfiguration: true when every check passes; otherwise the
      exception of the first failing check, in the order tools, scans, URL,
      credentials. */
  function ValidateConfiguration(tools: Option<seq<Option<IScanInstallation>>>, scans: Option<seq<ScanJob>>,
                                 info: ServerInfo): (r: Result<bool>)
    ensures r.Ok? ==> r.value
    ensures r.Ok? <==> ToolsPresent(tools) && ScansPresent(scans) && ServerUsable(info)
    ensures !ToolsPresent(tools) ==> r == Err(IScanToolMissing(NoInstallationMessage))
    ensures ToolsPresent(tools) && !ScansPresent(scans) ==> r == Err(HubConfiguration(NoTargetsMessage))
    ensures ToolsPresent(tools) && ScansPresent(scans) && !info.pluginConfigured ==>
      && (IsBlank(info.serverUrl) ==> r == Err(HubConfiguration(NoUrlMessage)))
      && (!IsBlank(info.serverUrl) && IsBlank(info.credentialsId) ==> r == Err(HubConfiguration(NoCredentialsMessage)))
  {
    if tools.None? || |tools.value| == 0 || tools.value[0].None? then Err(IScanToolMissing(NoInstallationMessage))
    else if scans.None? || |scans.value| == 0 then Err(HubConfiguration(NoTargetsMessage))
    else if !info.pluginConfigured && IsBlank(info.serverUrl) then Err(HubConfiguration(NoUrlMessage))
    else if !info.pluginConfigured && IsBlank(info.credentialsId) then Err(HubConfiguration(NoCredentialsMessage))
    else Ok(true)
  }

  /** When several checks fail, the tool check is reported; a configured
      plugin is never asked for its URL or credentials. */
  lemma ConfigurationChecksInOrder(tools: Option<seq<Option<IScanInstallation>>>, scans: Option<seq<ScanJob>>,
                                   info: ServerInfo)
    ensures !ToolsPresent(tools) ==> ValidateConfiguration(tools, scans, info).error.IScanToolMissing?
    ensures ToolsPresent(tools) && ScansPresent(scans) && info.pluginConfigured ==>
      ValidateConfiguration(tools, scans, info) == Ok(true)
  {
  }

  // ---------------------------------------------------------------- getIScanCLI

  predicate Selected(tool: Option<IScanInstallation>, name: string) {
    tool.Some? && tool.value.name == name
  }

  /** The CLI path of the last installation among the first `n` whose name is
      `name`, if any. */
  function LastSelected(tools: seq<Option<IScanInstallation>>, name: string, n: nat): (r: Option<string>)
    requires n <= |tools|
    ensures r.None? <==> forall j :: 0 <= j < n ==> !Selected(tools[j], name)
  {
    if n == 0 then None
    else if Selected(tools[n - 1], name) then Some(tools[n - 1].value.cliPath)
    else LastSelected(tools, name, n - 1)
  }

  /** Entry `j` neither is null nor names a selected installation without CLI. */
  predicate Usable(tool: Option<IScanInstallation>, name: string) {
    tool.Some? && (tool.value.name == name ==> tool.value.cliExists)
  }

  /** The exception an unusable entry raises. */
  function Unusable(tool: Option<IScanInstallation>): Error {
    if tool.None? then NullPointer else IScanToolMissing(CliMissingMessage + tool.value.home + "'")
  }

  /** The loop of getIScanCLI from entry `i` on, `found` the CLI kept so far. */
  function FindCli(tools: seq<Option<IScanInstallation>>, name: string, i: nat, found: Option<string>): (r: Result<string>)
    requires i <= |tools|
    requires found == LastSelected(tools, name, i)
    requires forall j :: 0 <= j < i ==> Usable(tools[j], name)
    ensures r.Ok? <==> (forall j :: i <= j < |tools| ==> Usable(tools[j], name)) && LastSelected(tools, name, |tools|).Some?
    ensures r.Ok? ==> r.value == LastSelected(tools, name, |tools|).value
    ensures (forall j :: i <= j < |tools| ==> Usable(tools[j], name)) && LastSelected(tools, name, |tools|).None? ==>
      r == Err(HubConfiguration(SelectInstallationMessage))
    ensures r.Err? && r.error != HubConfiguration(SelectInstallationMessage) ==>
      exists k :: i <= k < |tools| && !Usable(tools[k], name) && r.error == Unusable(tools[k])
        && forall j :: i <= j < k ==> Usable(tools[j], name)
    // a null entry or a selected installation without CLI is reported, never
    // hidden behind the select-installation error
    ensures (exists j :: i <= j < |tools| && !Usable(tools[j], name)) ==>
      exists k :: i <= k < |tools| && !Usable(tools[k], name) && r == Err(Unusable(tools[k]))
        && forall j :: i <= j < k ==> Usable(tools[j], name)
    decreases |tools| - i
  {
    if i == |tools| then
      if found.None? then Err(HubConfiguration(SelectInstallationMessage)) else Ok(found.value)
    else if tools[i].None? then Err(NullPointer)
    else
      var tool := tools[i].value;
      if tool.name == name then
        if tool.cliExists then FindCli(tools, name, i + 1, Some(tool.cliPath))
        else Err(IScanToolMissing(CliMissingMessage + tool.home + "'"))
      else FindCli(tools, name, i + 1, found)
  }

  /** getIScanCLI: the CLI of the last installation with the configured name,
      provided no entry before the end is null and every installation with
      that name has its CLI file; the first offending entry's exception
      otherwise, and a configuration error when no installation has the name. */
  function GetIScanCLI(tools: seq<Option<IScanInstallation>>, name: string): (r: Result<string>)
    ensures r.Ok? <==> (forall j :: 0 <= j < |tools| ==> Usable(tools[j], name)) && LastSelected(tools, name, |tools|).Some?
    ensures r.Ok? ==> r.value == LastSelected(tools, name, |tools|).value
    ensures (forall j :: 0 <= j < |tools| ==> Usable(tools[j], name)) && LastSelected(tools, name, |tools|).None? ==>
      r == Err(HubConfiguration(SelectInstallationMessage))
    ensures r.Err? && r.error != HubConfiguration(SelectInstallationMessage) ==>
      exists k :: 0 <= k < |tools| && !Usable(tools[k], name) && r.error == Unusable(tools[k])
        && forall j :: 0 <= j < k ==> Usable(tools[j], name)
    ensures (exists j :: 0 <= j < |tools| && !Usable(tools[j], name)) ==>
      exists k :: 0 <= k < |tools| && !Usable(tools[k], name) && r == Err(Unusable(tools[k]))
        && forall j :: 0 <= j < k ==> Usable(tools[j], name)
  {
    FindCli(tools, name, 0, None)
  }
}

=== FILE: failure.dfy ===
/** HubCommonFailureStep.checkFailureConditions: the build result decided from
    the step's configuration and the Hub's policy status of the bill of
    materials, and the policy counts handed to the build's variables. The
    answer of the Hub is given as data. */
module Failure {
  import opened Common

  /** FailureConditionBuildStateEnum: the result to set on a violation. */
  datatype FailureBuildState = StateSuccess | StateUnstable | StateFailure

  /** VersionBomPolicyStatusOverallStatusEnum. */
  datatype PolicyState = InViolation | InViolationOverridden | NotInViolation

  /** ComponentVersionStatusCount: how many bom entries are in one state. */
  datatype StatusCount = StatusCount(name: PolicyState, value: Int32)

  /** VersionBomPolicyStatusView; `counts` is None when the list is null. */
  datatype PolicyStatus = PolicyStatus(overallStatus: PolicyState, counts: Option<seq<StatusCount>>)

  /** What can go wrong while the services are created, the Hub version is
      checked or the policy status is fetched. The first three are caught by
      the step; the others leave it. */
  datatype Fault =
    | PluginFault          // BDJenkinsHubPluginException
    | IntegrationFault     // IntegrationException (other than a failed fetch)
    | UriSyntaxFault       // URISyntaxException
    | IoFault              // IOException
    | EncryptionFault      // EncryptionException
    | IllegalArgumentFault // IllegalArgumentException

  predicate Caught(f: Fault) {
    f.PluginFault? || f.IntegrationFault? || f.UriSyntaxFault?
  }

  function Escaped(f: Fault): Error
    requires !Caught(f)
  {
    match f
    case IoFault => IOError("")
    case EncryptionFault => Uncaught("EncryptionException")
    case IllegalArgumentFault => IllegalArgument("")
  }

  /** How the conversation with the Hub ended: a fault before the status was
      read, no status (a failed fetch is swallowed into this), or a status. */
  datatype PolicyLookup = LookupFailed(fault: Fault) | NoPolicyStatus | Found(status: PolicyStatus)

  /** HubVariableContributor: the last count seen for each state; None when
      no count of that state was reported. */
  datatype Contributor = Contributor(inViolation: Option<Int32>, overridden: Option<Int32>, notInViolation: Option<Int32>)

  const EmptyContributor := Contributor(None, None, None)

  /** What the step did to the run: what it returned, the result it asked
      Run.setResult for (None when it did not call it) and the contributor
      it added (None when it added none). */
  datatype StepOutcome = StepOutcome(returned: bool, setResult: Option<BuildResult>, contributor: Option<Contributor>)

  /** Lines 81-86: UNSTABLE and FAILURE are kept, anything else (including no
      state at all) becomes SUCCESS. */
  function ResultForViolation(state: Option<FailureBuildState>): (r: BuildResult)
    ensures r == Unstable <==> state == Some(StateUnstable)
    ensures r == Failure <==> state == Some(StateFailure)
    ensures r == Success <==> state.None? || state == Some(StateSuccess)
  {
    match state
    case Some(StateUnstable) => Unstable
    case Some(StateFailure) => Failure
    case _ => Success
  }

  // ----------------------------------------------------------- the counts

  /** The value of the last count named `name` in `cs` (the reference the
      loop is measured against). */
  function LastCount(cs: seq<StatusCount>, name: PolicyState): (r: Option<Int32>)
    ensures r.None? <==> forall k :: 0 <= k < |cs| ==> cs[k].name != name
  {
    if cs == [] then None
    else if cs[|cs| - 1].name == name then Some(cs[|cs| - 1].value)
    else
      assert forall k :: 0 <= k < |cs| - 1 ==> cs[..|cs| - 1][k] == cs[k];
      LastCount(cs[..|cs| - 1], name)
  }

  /** The value found is that of a count of the state, and no later count has
      the state. */
  lemma {:induction false} LastCountIsLast(cs: seq<StatusCount>, name: PolicyState)
    requires LastCount(cs, name).Some?
    ensures exists k :: 0 <= k < |cs| && cs[k] == StatusCount(name, LastCount(cs, name).value)
                        && forall j :: k < j < |cs| ==> cs[j].name != name
  {
    var n := |cs| - 1;
    if cs[n].name == name {
      assert cs[n] == StatusCount(name, LastCount(cs, name).value);
    } else {
      var front := cs[..n];
      LastCountIsLast(front, name);
      var k :| 0 <= k < |front| && front[k] == StatusCount(name, LastCount(front, name).value)
               && forall j :: k < j < |front| ==> front[j].name != name;
      assert cs[k] == front[k];
      assert forall j :: k < j < n ==> cs[j] == front[j];
    }
  }

  /** One turn of the loop at lines 127-140: the matching setter is called. */
  function Record(c: Contributor, count: StatusCount): Contributor {
    match count.name
    case InViolation => c.(inViolation := Some(count.value))
    case InViolationOverridden => c.(overridden := Some(count.value))
    case NotInViolation => c.(notInViolation := Some(count.value))
  }

  function Expected(cs: seq<StatusCount>): Contributor {
    Contributor(LastCount(cs, InViolation), LastCount(cs, InViolationOverridden), LastCount(cs, NotInViolation))
  }

  /** The loop from count `i` on, starting from the contributor built so far. */
  function Tally(cs: seq<StatusCount>, i: nat, c: Contributor): (r: Contributor)
    requires i <= |cs|
    requires c == Expected(cs[..i])
    ensures r == Expected(cs)
    decreases |cs| - i
  {
    if i == |cs| then
      assert cs[..i] == cs;
      c
    else
      assert cs[..i + 1][..i] == cs[..i];
      Tally(cs, i + 1, Record(c, cs[i]))
  }

  /** Each field of the contributor holds the last count of its own state
      and no other. */
  function ContributorOf(counts: Option<seq<StatusCount>>): (r: Contributor)
    ensures counts.None? ==> r == EmptyContributor
    ensures counts.Some? ==> r == Expected(counts.value)
  {
    if counts.None? || counts.value == [] then EmptyContributor
    else
      assert counts.value[..0] == [];
      Tally(counts.value, 0, EmptyContributor)
  }

  // ------------------------------------------------------------- the step

  /** checkFailureConditions. `failBuild` and `buildState` are None when the
      configured values are null; a null flag fails on unboxing at line 76 and
      a null state fails at line 118, once a status has been read. */
  function CheckFailureConditions(failBuild: Option<bool>, buildState: Option<FailureBuildState>, dryRun: bool,
                                  policyStatusUrl: Option<string>, lookup: PolicyLookup): (r: Result<StepOutcome>)
    // whenever it returns, it returns true
    ensures r.Ok? ==> r.value.returned
    // the exceptions that leave the step
    ensures r.Err? <==>
      || failBuild.None?
      || (failBuild == Some(true) && !dryRun && policyStatusUrl.Some? &&
            ((lookup.LookupFailed? && !Caught(lookup.fault)) || (lookup.Found? && buildState.None?)))
    // and which exception: the null-pointer exception of a null flag or state, or the fault itself
    ensures failBuild.None? ==> r == Err(NullPointer)
    ensures failBuild == Some(true) && !dryRun && policyStatusUrl.Some? && lookup.LookupFailed? && !Caught(lookup.fault) ==>
      r == Err(Escaped(lookup.fault))
    ensures failBuild == Some(true) && !dryRun && policyStatusUrl.Some? && lookup.Found? && buildState.None? ==>
      r == Err(NullPointer)
    // a step that is switched off only marks the build unstable
    ensures failBuild == Some(false) ==> r == Ok(StepOutcome(true, Some(Unstable), None))
    // a dry run and a missing status leave the run alone
    ensures failBuild == Some(true) && dryRun ==> r == Ok(StepOutcome(true, None, None))
    ensures failBuild == Some(true) && !dryRun && policyStatusUrl.Some? && lookup.NoPolicyStatus? ==>
      r == Ok(StepOutcome(true, None, None))
    // a missing policy module or a caught fault marks the build unstable
    ensures failBuild == Some(true) && !dryRun && policyStatusUrl.None? ==> r == Ok(StepOutcome(true, Some(Unstable), None))
    ensures failBuild == Some(true) && !dryRun && policyStatusUrl.Some? && lookup.LookupFailed? && Caught(lookup.fault) ==>
      r == Ok(StepOutcome(true, Some(Unstable), None))
    // with a status read: the configured result exactly on a violation, and the counts
    ensures r.Ok? && lookup.Found? && failBuild == Some(true) && !dryRun && policyStatusUrl.Some? ==>
      && (r.value.setResult.Some? <==> lookup.status.overallStatus == InViolation)
      && (r.value.setResult.Some? ==> r.value.setResult.value == ResultForViolation(buildState))
      && r.value.contributor == Some(ContributorOf(lookup.status.counts))
    // a contributor is only added once a status was read
    ensures r.Ok? && r.value.contributor.Some? ==> lookup.Found?
  {
    if failBuild.None? then Err(NullPointer)
    else if !failBuild.value then Ok(StepOutcome(true, Some(Unstable), None))
    else
      var violationResult := ResultForViolation(buildState);
      if dryRun then Ok(StepOutcome(true, None, None))
      else if policyStatusUrl.None? then Ok(StepOutcome(true, Some(Unstable), None))
      else
        match lookup
        case LookupFailed(f) =>
          if Caught(f) then Ok(StepOutcome(true, Some(Unstable), None)) else Err(Escaped(f))
        case NoPolicyStatus => Ok(StepOutcome(true, None, None))
        case Found(status) =>
          if buildState.None? then Err(NullPointer)
          else
            var request := if status.overallStatus == InViolation then Some(violationResult) else None;
            Ok(StepOutcome(true, request, Some(ContributorOf(status.counts))))
  }

  /** The step never asks for a result better than UNSTABLE unless it was
      configured with SUCCESS, and asks for FAILURE only when configured so
      and the bill of materials is in violation. */
  lemma FailureOnlyOnConfiguredViolation(failBuild: Option<bool>, buildState: Option<FailureBuildState>, dryRun: bool,
                                         policyStatusUrl: Option<string>, lookup: PolicyLookup)
    ensures var r := CheckFailureConditions(failBuild, buildState, dryRun, policyStatusUrl, lookup);
      && (r.Ok? && r.value.setResult == Some(Failure) ==>
            buildState == Some(StateFailure) && lookup.Found? && lookup.status.overallStatus == InViolation)
      && (r.Ok? && r.value.setResult == Some(Success) ==> buildState == Some(StateSuccess))
      && (r.Ok? && r.value.setResult.Some? ==> r.value.setResult.value in {Success, Unstable, Failure})
  {
  }

  /** An overridden or clean bill of materials leaves the result alone, while
      its counts are still reported. */
  lemma NoViolationKeepsResult(buildState: FailureBuildState, url: string, counts: seq<StatusCount>)
    ensures CheckFailureConditions(Some(true), Some(buildState), false, Some(url),
                                   Found(PolicyStatus(NotInViolation, Some(counts))))
            == Ok(StepOutcome(true, None, Some(Expected(counts))))
    ensures CheckFailureConditions(Some(true), Some(buildState), false, Some(url),
                                   Found(PolicyStatus(InViolationOverridden, Some(counts)))).value.setResult == None
  {
  }

  /** A later count of the same state replaces an earlier one and leaves the
      other states alone. */
  lemma LaterCountWins(a: Int32, b: Int32, n: Int32)
    ensures ContributorOf(Some([StatusCount(InViolation, a), StatusCount(NotInViolation, n), StatusCount(InViolation, b)]))
            == Contributor(Some(b), None, Some(n))
  {
    var cs := [StatusCount(InViolation, a), StatusCount(NotInViolation, n), StatusCount(InViolation, b)];
    assert cs[..2] == [StatusCount(InViolation, a), StatusCount(NotInViolation, n)];
    assert LastCount(cs, InViolation) == Some(b);
    assert LastCount(cs[..2], NotInViolation) == Some(n);
    assert LastCount(cs, NotInViolation) == Some(n);
    assert LastCount(cs, InViolationOverridden) == None;
  }
}

=== FILE: hubscan.dfy ===
/** The parts of PostBuildHubScan the scan step depends on: the exclusion
    patterns handed to it, the lazily defaulted verbose flag, and perform,
    which never fails the build itself. The common scan step it delegates to
    is given as a function. */
module HubScan {
  import opened Common

  /** ScanExclusion: one configured exclusion; a null pattern is "". */
  datatype ScanExclusion = ScanExclusion(exclusionPattern: string)

  /** getExclusionPatterns: null for null, otherwise the patterns in the
      configured order, one per exclusion. */
  function GetExclusionPatterns(excludePatterns: Option<seq<ScanExclusion>>): (r: Option<seq<string>>)
    ensures r.None? <==> excludePatterns.None?
    ensures r.Some? ==> |r.value| == |excludePatterns.value|
    ensures r.Some? ==> forall i :: 0 <= i < |r.value| ==> r.value[i] == excludePatterns.value[i].exclusionPattern
  {
    if excludePatterns.None? then None
    else Some(seq(|excludePatterns.value|, i requires 0 <= i < |excludePatterns.value| =>
                    excludePatterns.value[i].exclusionPattern))
  }

  /** The exclusions can be rebuilt from the patterns: nothing is dropped,
      added or reordered. */
  lemma ExclusionPatternsRoundTrip(excludePatterns: Option<seq<ScanExclusion>>)
    ensures var r := GetExclusionPatterns(excludePatterns);
      r.Some? ==> Some(seq(|r.value|, i requires 0 <= i < |r.value| => ScanExclusion(r.value[i]))) == excludePatterns
  {
    var r := GetExclusionPatterns(excludePatterns);
    if r.Some? {
      var rebuilt := seq(|r.value|, i requires 0 <= i < |r.value| => ScanExclusion(r.value[i]));
      assert forall i :: 0 <= i < |rebuilt| ==> rebuilt[i] == excludePatterns.value[i];
      assert rebuilt == excludePatterns.value;
    }
  }

  /** The boxed `verbose` field: None until set or first read. */
  datatype Verbosity = Verbosity(verbose: Option<bool>)

  /** setverbose. */
  function SetVerbose(v: Verbosity, value: bool): (r: Verbosity)
    ensures r.verbose == Some(value)
  {
    v.(verbose := Some(value))
  }

  /** isVerbose: an unset flag becomes true on first read, and stays set. */
  function IsVerbose(v: Verbosity): (r: (bool, Verbosity))
    ensures r.1.verbose == Some(r.0)
    ensures v.verbose.Some? ==> r == (v.verbose.value, v)
    ensures v.verbose.None? ==> r.0
  {
    if v.verbose.None? then (true, Verbosity(Some(true))) else (v.verbose.value, v)
  }

  /** Reading the flag twice gives the same answer and leaves the field as
      the first read left it; a value set is the value read. */
  lemma VerboseReadStable(v: Verbosity, value: bool)
    ensures IsVerbose(IsVerbose(v).1) == IsVerbose(v)
    ensures IsVerbose(SetVerbose(v, value)).0 == value
  {
  }

  /** What perform leaves behind: its return value, the error it logged, if
      any, and the verbose field after the call. */
  datatype PerformOutcome = PerformOutcome(returned: bool, logged: Option<Error>, verbosity: Verbosity)

  /** perform: builds the common scan step from the verbose flag and the
      exclusion patterns, runs it, and logs whatever it throws instead of
      failing. `scanStep` stands for BDCommonScanStep.runScan, which is not
      part of this model: given the flag and the patterns, the exception it
      throws, if any. */
  function Perform(v: Verbosity, excludePatterns: Option<seq<ScanExclusion>>,
                   scanStep: (bool, Option<seq<string>>) -> Option<Error>): (r: PerformOutcome)
    ensures r.returned
    ensures r.verbosity.verbose.Some?
    ensures v.verbose.Some? ==> r.verbosity == v
    ensures v.verbose.None? ==> r.verbosity == Verbosity(Some(true))
    ensures r.verbosity == IsVerbose(v).1
    ensures r.logged == scanStep(IsVerbose(v).0, GetExclusionPatterns(excludePatterns))
    ensures v.verbose.None? ==> r.logged == scanStep(true, GetExclusionPatterns(excludePatterns))
  {
    var (verbose, after) := IsVerbose(v);
    PerformOutcome(true, scanStep(verbose, GetExclusionPatterns(excludePatterns)), after)
  }
}

=== FILE: iscan.dfy ===
/** PostBuildHubiScan.runScan and perform: the iScan post-build action from the
    build's result to the result it leaves behind. Everything the action asks
    of Jenkins, the build node and the scan CLI is given as data. */
module IScan {
  import opened Common
  import opened Strings
  import opened Targets
  import opened Command
  import opened Logs
  import opened Config
  import opened Mapping

  /** The configured action (the fields of PostBuildHubiScan). `test` is the
      integration-test switch that adds "--dryRun". */
  datatype Job = Job(
    scans: Option<seq<ScanJob>>,
    iScanName: string,
    projectName: string,
    projectRelease: string,
    memory: Int32,
    duplicateProjectId: string,
    test: bool)

  /** What the build node and the CLI answer.
      channel: whether the node has a channel (target paths are then made canonical);
      files: the file facts of the node;
      hubUrl: the configured Hub URL, None when it is malformed;
      output: what launching the CLI gave: the exception that reading the
        build's environment, the launch or the wait for the process threw;
        None when no process starter was found; otherwise what the CLI printed;
      cliDir: the names of the entries next to the CLI;
      listing: the log names in a folder of that directory;
      host: the local host name;
      logPath: the canonical path of a log, given its folder and name.
    Each of the last four is an answer or the exception (IOException,
    InterruptedException, UnknownHostException) the call throws. */
  datatype Node = Node(
    channel: bool,
    files: FileFacts,
    hubUrl: Option<Url>,
    output: Result<Option<string>>,
    cliDir: Result<seq<string>>,
    listing: string -> Result<seq<string>>,
    host: Result<string>,
    logPath: (string, string) -> Result<string>)

  /** What runScan did once its checks passed: the command it built, whether
      the process ran, whether it marked the build unstable, and per target
      the log it found (None when it found none). */
  datatype ScanReport = ScanReport(command: seq<string>, started: bool, markedUnstable: bool, logs: seq<Option<string>>)

  /** The log reported for one target, or the exception the lookup raised,
      in the order of the calls: listing the CLI's directory, the missing log
      folder (a null-pointer exception when it is listed), listing the log
      folder, the search with its host lookup, the chosen log's canonical
      path. */
  function LogFor(node: Node, target: string): (r: Result<Option<string>>)
    ensures node.cliDir.Err? ==> r == Err(node.cliDir.error)
    ensures node.cliDir.Ok? && LogFolder(node.cliDir.value).None? ==> r == Err(NullPointer)
    ensures node.cliDir.Ok? && LogFolder(node.cliDir.value).Some? ==>
      var folder := LogFolder(node.cliDir.value).value;
      var listed := node.listing(folder);
      && (listed.Err? ==> r == Err(listed.error))
      && (listed.Ok? ==>
            var found := LatestLogOnHost(listed.value, FileName(target), node.host);
            && (found.Err? ==> r == Err(found.error))
            && (found == Ok(None) ==> r == Ok(None))
            && (found.Ok? && found.value.Some? ==>
                  && found.value.value < |listed.value|
                  && var path := node.logPath(folder, listed.value[found.value.value]);
                     && (path.Err? ==> r == Err(path.error))
                     && (path.Ok? ==> r == Ok(Some(path.value)))))
  {
    var dir :- node.cliDir;
    var folder := LogFolder(dir);
    if folder.None? then Err(NullPointer)
    else
      var names :- node.listing(folder.value);
      var found :- LatestLogOnHost(names, FileName(target), node.host);
      if found.None? then Ok(None)
      else
        var path :- node.logPath(folder.value, names[found.value]);
        Ok(Some(path))
  }

  /** `f` applied to each element in order, stopping at the first exception. */
  function TryEach<T>(f: string -> Result<T>, xs: seq<string>): (r: Result<seq<T>>)
    ensures r.Ok? <==> forall i :: 0 <= i < |xs| ==> f(xs[i]).Ok?
    ensures r.Ok? ==> |r.value| == |xs| && forall i :: 0 <= i < |xs| ==> r.value[i] == f(xs[i]).value
    ensures r.Err? ==> exists i :: 0 <= i < |xs| && f(xs[i]) == Err(r.error)
                                    && forall j :: 0 <= j < i ==> f(xs[j]).Ok?
  {
    if xs == [] then Ok([])
    else
      var first :- f(xs[0]);
      match TryEach(f, xs[1..])
      case Err(e) =>
        var i :| 0 <= i < |xs[1..]| && f(xs[1..][i]) == Err(e) && forall j :: 0 <= j < i ==> f(xs[1..][j]).Ok?;
        assert f(xs[i + 1]) == Err(e);
        assert forall j :: 1 <= j < i + 1 ==> xs[j] == xs[1..][j - 1];
        Err(e)
      case Ok(rest) =>
        assert forall i :: 1 <= i < |xs| ==> xs[i] == xs[1..][i - 1];
        Ok([first] + rest)
  }

  /** The log loop of runScan: one log per target, or the first exception. */
  function LogsFor(node: Node, targets: seq<string>): (r: Result<seq<Option<string>>>)
    ensures r.Ok? <==> forall i :: 0 <= i < |targets| ==> LogFor(node, targets[i]).Ok?
    ensures r.Ok? ==> |r.value| == |targets| && forall i :: 0 <= i < |targets| ==> r.value[i] == LogFor(node, targets[i]).value
    ensures r.Err? ==> exists i :: 0 <= i < |targets| && LogFor(node, targets[i]) == Err(r.error)
                                    && forall j :: 0 <= j < i ==> LogFor(node, targets[j]).Ok?
  {
    TryEach(t => LogFor(node, t), targets)
  }

  /** The settings runScan builds its command from. */
  function InvocationOf(job: Job, javaHome: string, cliPath: string, url: Url, info: ServerInfo,
                        targets: seq<string>): Invocation {
    Invocation(javaHome, EffectiveMemory(job.memory), cliPath, url, info.username, info.password, job.test, targets)
  }

  /** The CLI ran and its output classifies as `v`. */
  predicate RanWith(node: Node, v: ScanVerdict) {
    node.output.Ok? && node.output.value.Some? && ClassifyOutput(node.output.value.value) == v
  }

  /** runScan. The targets are checked first, then the URL is read, the
      command built and the CLI run; its output decides between marking the
      build unstable and reporting the logs. */
  function RunScan(job: Job, wd: string, javaHome: string, cliPath: string, info: ServerInfo,
                   node: Node, targets: seq<string>): (r: Result<ScanReport>)
    // a target refused by the workspace check stops the scan before anything runs
    ensures ValidateScanTargets(wd, node.channel, node.files, targets).Err? ==>
      r == Err(ValidateScanTargets(wd, node.channel, node.files, targets).error)
    ensures ValidateScanTargets(wd, node.channel, node.files, targets).Ok? && node.hubUrl.None? ==> r == Err(MalformedUrl)
    ensures r.Ok? ==>
      && (forall t :: t in targets ==> Accepted(wd, node.channel, node.files, t))
      && node.hubUrl.Some?
      && r.value.command == BuildCommand(InvocationOf(job, javaHome, cliPath, node.hubUrl.value, info, targets))
    // an exception from the launch ends the scan after the checks
    ensures ValidateScanTargets(wd, node.channel, node.files, targets).Ok? && node.hubUrl.Some? && node.output.Err? ==>
      r == Err(node.output.error)
    // what happens after the launch
    ensures r.Ok? ==> node.output.Ok? && (r.value.started <==> node.output.value.Some?)
    ensures r.Ok? ==> (r.value.markedUnstable <==> RanWith(node, MarkUnstable))
    ensures r.Ok? && !RanWith(node, FindLogs) ==> r.value.logs == []
    ensures r.Ok? && RanWith(node, FindLogs) ==> LogsFor(node, targets) == Ok(r.value.logs)
    ensures r.Err? && ValidateScanTargets(wd, node.channel, node.files, targets).Ok? && node.hubUrl.Some?
            && node.output.Ok? ==>
      RanWith(node, FindLogs) && LogsFor(node, targets) == Err(r.error)
  {
    var _ :- ValidateScanTargets(wd, node.channel, node.files, targets);
    if node.hubUrl.None? then Err(MalformedUrl)
    else
      var cmd := BuildCommand(InvocationOf(job, javaHome, cliPath, node.hubUrl.value, info, targets));
      var output :- node.output;
      if output.None? then Ok(ScanReport(cmd, false, false, []))
      else if ClassifyOutput(output.value) == MarkUnstable then Ok(ScanReport(cmd, true, true, []))
      else
        var logs :- LogsFor(node, targets);
        Ok(ScanReport(cmd, true, false, logs))
  }

  /** The command runScan launches carries the configured memory (the
      default for 0), the Hub host, and exactly the targets, and the CLI
      reads back every setting when the first target does not look like a
      flag. */
  lemma RunScanCommand(job: Job, wd: string, javaHome: string, cliPath: string, info: ServerInfo,
                       node: Node, targets: seq<string>)
    requires RunScan(job, wd, javaHome, cliPath, info, node, targets).Ok?
    ensures var cmd := RunScan(job, wd, javaHome, cliPath, info, node, targets).value.command;
      && 11 + |targets| <= |cmd|
      && cmd[3] == "-Xmx" + IntToString(EffectiveMemory(job.memory)) + "m"
      && cmd[6] == node.hubUrl.value.host
      && cmd[|cmd| - |targets|..] == targets
      && (TargetsUnambiguous(targets) ==>
            ReadCommand(cmd) == Some(InvocationOf(job, javaHome, cliPath, node.hubUrl.value, info, targets)))
  {
    var inv := InvocationOf(job, javaHome, cliPath, node.hubUrl.value, info, targets);
    ReadFixedPart(inv);
    if TargetsUnambiguous(targets) {
      ReadBuildCommand(inv);
    }
  }

  /** What perform leaves behind: its return value, the result it sets on the
      build, the scan report and the mapping run when they happened, and the
      exception it caught, if any. */
  datatype PerformOutcome = PerformOutcome(
    returned: bool,
    result: BuildResult,
    scan: Option<ScanReport>,
    mapping: Option<MappingRun>,
    caught: Option<Error>)

  /** Mapping is only attempted when both the project and the release are named. */
  predicate MappingConfigured(job: Job) {
    !IsBlank(job.projectName) && !IsBlank(job.projectRelease)
  }

  /** The work inside perform's try block: Ok(report, mapping) when nothing
      was thrown, None for the mapping when it was not configured. */
  function Attempt(job: Job, tools: Option<seq<Option<IScanInstallation>>>, info: ServerInfo,
                   workspace: Option<string>, javaHome: Result<string>, node: Node, catalog: Catalog)
    : (r: Result<(ScanReport, Option<MappingRun>)>)
    ensures r.Ok? ==>
      && ValidateConfiguration(tools, job.scans, info).Ok?
      && workspace.Some? && javaHome.Ok?
      && GetIScanCLI(tools.value, job.iScanName).Ok?
      && var targets := ResolveTargets(workspace.value, job.scans.value);
         && RunScan(job, workspace.value, javaHome.value, GetIScanCLI(tools.value, job.iScanName).value,
                    info, node, targets) == Ok(r.value.0)
         && (r.value.1.Some? <==> MappingConfigured(job))
         && (r.value.1.Some? ==>
               r.value.1.value == DoScanMapping(job.projectName, job.projectRelease, job.duplicateProjectId,
                                                targets, catalog)
               && r.value.1.value.outcome.Ok?)
    // the steps in the order of lines 169-213, each one's exception ending the attempt
    ensures ValidateConfiguration(tools, job.scans, info).Err? ==>
      r == Err(ValidateConfiguration(tools, job.scans, info).error)
    ensures ValidateConfiguration(tools, job.scans, info).Ok? ==>
      && (workspace.None? ==> r == Err(NullPointer))
      && (workspace.Some? && javaHome.Err? ==> r == Err(javaHome.error))
      && (workspace.Some? && javaHome.Ok? ==>
            var cli := GetIScanCLI(tools.value, job.iScanName);
            && (cli.Err? ==> r == Err(cli.error))
            && (cli.Ok? ==>
                  var targets := ResolveTargets(workspace.value, job.scans.value);
                  var scan := RunScan(job, workspace.value, javaHome.value, cli.value, info, node, targets);
                  var run := DoScanMapping(job.projectName, job.projectRelease, job.duplicateProjectId,
                                           targets, catalog);
                  && (scan.Err? ==> r == Err(scan.error))
                  && (scan.Ok? && MappingConfigured(job) && run.outcome.Err? ==> r == Err(run.outcome.error))
                  && (scan.Ok? && (!MappingConfigured(job) || run.outcome.Ok?) ==> r.Ok?)))
  {
    var _ :- ValidateConfiguration(tools, job.scans, info);
    if workspace.None? then Err(NullPointer)
    else
      var home :- javaHome;
      var cli :- GetIScanCLI(tools.value, job.iScanName);
      var targets := ResolveTargets(workspace.value, job.scans.value);
      var report :- RunScan(job, workspace.value, home, cli, info, node, targets);
      if MappingConfigured(job) then
        var run := DoScanMapping(job.projectName, job.projectRelease, job.duplicateProjectId, targets, catalog);
        if run.outcome.Err? then Err(run.outcome.error)
        else Ok((report, Some(run)))
      else Ok((report, None))
  }

  /** perform. Only a successful build is scanned; any exception is caught
      and turns the result to UNSTABLE; the action itself always returns
      true. */
  function Perform(buildResult: BuildResult, job: Job, tools: Option<seq<Option<IScanInstallation>>>, info: ServerInfo,
                   workspace: Option<string>, javaHome: Result<string>, node: Node, catalog: Catalog)
    : (r: PerformOutcome)
    ensures r.returned
    // a build that is not successful is left exactly as it is
    ensures buildResult != Success ==> r == PerformOutcome(true, buildResult, None, None, None)
    // a successful build ends SUCCESS or UNSTABLE, never worse
    ensures buildResult == Success ==> r.result in {Success, Unstable}
    // it stays SUCCESS exactly when nothing was thrown and runScan did not mark it unstable
    ensures buildResult == Success ==>
      (r.result == Success <==> r.caught.None? && r.scan.Some? && !r.scan.value.markedUnstable)
    ensures r.caught.Some? ==> r.result == Unstable && r.scan.None? && r.mapping.None?
    ensures buildResult == Success && r.caught.None? ==>
      r.scan.Some? && Attempt(job, tools, info, workspace, javaHome, node, catalog) == Ok((r.scan.value, r.mapping))
    ensures buildResult == Success && r.caught.Some? ==>
      Attempt(job, tools, info, workspace, javaHome, node, catalog) == Err(r.caught.value)
  {
    if buildResult != Success then PerformOutcome(true, buildResult, None, None, None)
    else
      match Attempt(job, tools, info, workspace, javaHome, node, catalog)
      case Err(e) => PerformOutcome(true, Unstable, None, None, Some(e))
      case Ok((report, mapping)) =>
        PerformOutcome(true, if report.markedUnstable then Unstable else Success, Some(report), mapping, None)
  }

  /** The scan a perform reports is the one its attempt made, with every
      earlier step of the attempt passed. */
  lemma PerformScanFromAttempt(buildResult: BuildResult, job: Job, tools: Option<seq<Option<IScanInstallation>>>,
                               info: ServerInfo, workspace: Option<string>, javaHome: Result<string>,
                               node: Node, catalog: Catalog)
    requires Perform(buildResult, job, tools, info, workspace, javaHome, node, catalog).scan.Some?
    ensures var r := Perform(buildResult, job, tools, info, workspace, javaHome, node, catalog);
      && buildResult == Success
      && Attempt(job, tools, info, workspace, javaHome, node, catalog) == Ok((r.scan.value, r.mapping))
  {
  }

  /** The targets at the end of a command runScan built are its targets. */
  lemma RunScanCommandEndsWithTargets(job: Job, wd: string, javaHome: string, cliPath: string, info: ServerInfo,
                                      node: Node, targets: seq<string>)
    requires RunScan(job, wd, javaHome, cliPath, info, node, targets).Ok?
    ensures var cmd := RunScan(job, wd, javaHome, cliPath, info, node, targets).value.command;
      && |targets| <= |cmd|
      && forall i :: 0 <= i < |targets| ==> cmd[|cmd| - |targets| + i] == targets[i]
  {
    var cmd := RunScan(job, wd, javaHome, cliPath, info, node, targets).value.command;
    assert cmd[|cmd| - |targets|..] == targets;
    SuffixAt(cmd, targets);
  }

  /** Every target of a scan that ran passed the workspace check. */
  lemma RunScanTargetsAccepted(job: Job, wd: string, javaHome: string, cliPath: string, info: ServerInfo,
                               node: Node, targets: seq<string>)
    requires RunScan(job, wd, javaHome, cliPath, info, node, targets).Ok?
    ensures forall i :: 0 <= i < |targets| ==> Accepted(wd, node.channel, node.files, targets[i])
  {
    assert forall i :: 0 <= i < |targets| ==> targets[i] in targets;
  }

  /** A scan that perform reports was run by runScan on the resolved job
      targets, with the CLI getIScanCLI chose. */
  lemma PerformScanRan(buildResult: BuildResult, job: Job, tools: Option<seq<Option<IScanInstallation>>>,
                       info: ServerInfo, workspace: Option<string>, javaHome: Result<string>,
                       node: Node, catalog: Catalog) returns (cli: string)
    requires Perform(buildResult, job, tools, info, workspace, javaHome, node, catalog).scan.Some?
    ensures workspace.Some? && javaHome.Ok? && tools.Some? && job.scans.Some?
    ensures GetIScanCLI(tools.value, job.iScanName) == Ok(cli)
    ensures RunScan(job, workspace.value, javaHome.value, cli, info, node, ResolveTargets(workspace.value, job.scans.value))
            == Ok(Perform(buildResult, job, tools, info, workspace, javaHome, node, catalog).scan.value)
  {
    PerformScanFromAttempt(buildResult, job, tools, info, workspace, javaHome, node, catalog);
    cli := GetIScanCLI(tools.value, job.iScanName).value;
  }

  /** The command ends with the resolution of each job, in job order, every
      one of them under the working directory. */
  predicate EndsWithResolvedJobs(cmd: seq<string>, wd: string, jobs: seq<ScanJob>) {
    && |jobs| <= |cmd|
    && forall i :: 0 <= i < |jobs| ==>
         var t := cmd[|cmd| - |jobs| + i];
         StartsWith(t, wd) && t == ResolveTarget(wd, jobs[i].scanTarget)
  }

  /** The command of a scan over resolved job targets ends with them. */
  lemma ResolvedTargetsOnCommand(job: Job, wd: string, javaHome: string, cliPath: string, info: ServerInfo,
                                 node: Node, jobs: seq<ScanJob>)
    requires RunScan(job, wd, javaHome, cliPath, info, node, ResolveTargets(wd, jobs)).Ok?
    ensures EndsWithResolvedJobs(RunScan(job, wd, javaHome, cliPath, info, node, ResolveTargets(wd, jobs)).value.command,
                                 wd, jobs)
  {
    var targets := ResolveTargets(wd, jobs);
    var cmd := RunScan(job, wd, javaHome, cliPath, info, node, targets).value.command;
    assert cmd[|cmd| - |targets|..] == targets;
    SuffixOfResolved(cmd, wd, jobs);
  }

  lemma SuffixOfResolved(cmd: seq<string>, wd: string, jobs: seq<ScanJob>)
    requires |jobs| <= |cmd| && cmd[|cmd| - |jobs|..] == ResolveTargets(wd, jobs)
    ensures EndsWithResolvedJobs(cmd, wd, jobs)
  {
    SuffixAt(cmd, ResolveTargets(wd, jobs));
  }

  /** Every target put on the command line lies under the workspace string
      and comes from the configured job of the same position. */
  lemma ScannedTargetsFromJobs(buildResult: BuildResult, job: Job, tools: Option<seq<Option<IScanInstallation>>>,
                               info: ServerInfo, workspace: Option<string>, javaHome: Result<string>,
                               node: Node, catalog: Catalog)
    ensures var r := Perform(buildResult, job, tools, info, workspace, javaHome, node, catalog);
      r.scan.Some? ==>
        && workspace.Some? && job.scans.Some?
        && EndsWithResolvedJobs(r.scan.value.command, workspace.value, job.scans.value)
  {
    if Perform(buildResult, job, tools, info, workspace, javaHome, node, catalog).scan.Some? {
      var cli := PerformScanRan(buildResult, job, tools, info, workspace, javaHome, node, catalog);
      ResolvedTargetsOnCommand(job, workspace.value, javaHome.value, cli, info, node, job.scans.value);
    }
  }

  /** Every target put on the command line passed the workspace check. */
  lemma ScannedTargetsAccepted(buildResult: BuildResult, job: Job, tools: Option<seq<Option<IScanInstallation>>>,
                               info: ServerInfo, workspace: Option<string>, javaHome: Result<string>,
                               node: Node, catalog: Catalog)
    ensures var r := Perform(buildResult, job, tools, info, workspace, javaHome, node, catalog);
      r.scan.Some? ==>
        var cmd := r.scan.value.command;
        var n := |job.scans.value|;
        && workspace.Some? && job.scans.Some? && n <= |cmd|
        && forall t :: t in cmd[|cmd| - n..] ==> Accepted(workspace.value, node.channel, node.files, t)
  {
    var r := Perform(buildResult, job, tools, info, workspace, javaHome, node, catalog);
    if r.scan.Some? {
      PerformScanFromAttempt(buildResult, job, tools, info, workspace, javaHome, node, catalog);
      var wd := workspace.value;
      var targets := ResolveTargets(wd, job.scans.value);
      var cli := GetIScanCLI(tools.value, job.iScanName).value;
      assert RunScan(job, wd, javaHome.value, cli, info, node, targets) == Ok(r.scan.value);
      assert r.scan.value.command[|r.scan.value.command| - |targets|..] == targets;
    }
  }

  /** A CLI run that shows no marker marks the build unstable, and the scans
      are still mapped when a project and release are named. */
  lemma UnstableScanStillMapped(job: Job, tools: Option<seq<Option<IScanInstallation>>>, info: ServerInfo,
                                workspace: Option<string>, javaHome: Result<string>, node: Node, catalog: Catalog)
    ensures MappingConfigured(job) && RanWith(node, MarkUnstable)
            && Attempt(job, tools, info, workspace, javaHome, node, catalog).Ok? ==>
      var r := Perform(Success, job, tools, info, workspace, javaHome, node, catalog);
      && r.result == Unstable
      && r.mapping.Some? && r.mapping.value.outcome.Ok?
  {
    if MappingConfigured(job) && RanWith(node, MarkUnstable)
       && Attempt(job, tools, info, workspace, javaHome, node, catalog).Ok? {
      var a := Attempt(job, tools, info, workspace, javaHome, node, catalog).value;
      var targets := ResolveTargets(workspace.value, job.scans.value);
      var cli := GetIScanCLI(tools.value, job.iScanName).value;
      assert RunScan(job, workspace.value, javaHome.value, cli, info, node, targets) == Ok(a.0);
      assert a.0.markedUnstable;
    }
  }

  /** A short CLI output such as "ERROR" shows no marker. */
  lemma ErrorOutputMarksUnstable()
    ensures ClassifyOutput("ERROR") == MarkUnstable
  {
    ShortOutputIsUnstable("ERROR");
  }
}

=== FILE: logs.dfy ===
/** Log-file correlation: the log folder runScan picks, File.getName of a scan
    target, the time stamp getLogFileForScan reads out of a log-file name, and
    its choice of the latest log. */
module Logs {
  import opened Common
  import opened Strings

  // ------------------------------------------------------------ file names

  function StripTrailingSlashes(p: string): (r: string)
    ensures r == [] || r[|r| - 1] != '/'
    ensures |r| <= |p| && r == p[..|r|]
    ensures forall i :: |r| <= i < |p| ==> p[i] == '/'
  {
    if |p| > 0 && p[|p| - 1] == '/' then StripTrailingSlashes(p[..|p| - 1]) else p
  }

  /** Everything after the last '/'. */
  function LastSegment(p: string): (r: string)
    ensures '/' !in r
    ensures EndsWith(p, r)
    ensures |r| < |p| ==> p[|p| - |r| - 1] == '/'
  {
    if p == [] || p[|p| - 1] == '/' then []
    else
      var r := LastSegment(p[..|p| - 1]) + [p[|p| - 1]];
      assert p[..|p| - 1][|p| - 1 - (|r| - 1)..] == p[|p| - |r|..|p| - 1];
      r
  }

  /** java.io.File.getName with '/' as the separator: the last path segment,
      trailing separators ignored. */
  function FileName(p: string): (r: string)
    ensures '/' !in r
  {
    LastSegment(StripTrailingSlashes(p))
  }

  /** The name of a file inside a directory is the name it was given. */
  lemma FileNameOfChild(dir: string, name: string)
    requires name != [] && '/' !in name
    ensures FileName(dir + "/" + name) == name
  {
    var p := dir + "/" + name;
    assert p[|p| - 1] == name[|name| - 1];
    assert StripTrailingSlashes(p) == p;
    LastSegmentOfChild(dir + "/", name);
  }

  lemma {:induction false} LastSegmentOfChild(dir: string, name: string)
    requires |dir| > 0 && dir[|dir| - 1] == '/' && '/' !in name
    ensures LastSegment(dir + name) == name
    decreases |name|
  {
    if name == [] {
      assert dir + name == dir;
    } else {
      var p := dir + name;
      assert p[..|p| - 1] == dir + name[..|name| - 1];
      assert p[|p| - 1] == name[|name| - 1];
      LastSegmentOfChild(dir, name[..|name| - 1]);
      assert name == name[..|name| - 1] + [name[|name| - 1]];
    }
  }

  /** runScan's log folder: the LAST entry of the CLI's directory whose name
      contains "log" (the loop keeps overwriting it), or null. */
  function LogFolder(entries: seq<string>): (r: Option<string>)
    ensures r.None? <==> forall j :: 0 <= j < |entries| ==> !Contains(entries[j], "log")
    ensures r.Some? ==>
      exists k :: 0 <= k < |entries| && entries[k] == r.value && Contains(r.value, "log")
        && forall j :: k < j < |entries| ==> !Contains(entries[j], "log")
  {
    if entries == [] then None
    else if Contains(entries[|entries| - 1], "log") then Some(entries[|entries| - 1])
    else
      var init := entries[..|entries| - 1];
      var r := LogFolder(init);
      assert forall j :: 0 <= j < |init| ==> entries[j] == init[j];
      r
  }

  // ------------------------------------------------------------ time stamps

  /** A parsed log time, field by field (Joda's DateTime in the default zone). */
  datatype Timestamp = Timestamp(year: nat, month: nat, day: nat, hour: nat, minute: nat, second: nat, millis: nat)

  predicate IsLeapYear(y: nat) {
    y % 4 == 0 && (y % 100 != 0 || y % 400 == 0)
  }

  function DaysInMonth(y: nat, m: nat): nat
    requires 1 <= m <= 12
  {
    if m == 2 then (if IsLeapYear(y) then 29 else 28)
    else if m == 4 || m == 6 || m == 9 || m == 11 then 30
    else 31
  }

  /** The values the pattern yyyy-MM-dd'T'HHmmss.SSS admits in the ISO calendar. */
  predicate Valid(t: Timestamp) {
    && t.year <= 9999
    && 1 <= t.month <= 12
    && 1 <= t.day <= DaysInMonth(t.year, t.month)
    && t.hour <= 23 && t.minute <= 59 && t.second <= 59 && t.millis <= 999
  }

  /** Joda's isAfter on two times in the same zone: field-wise lexicographic. */
  predicate IsAfter(a: Timestamp, b: Timestamp) {
    if a.year != b.year then a.year > b.year
    else if a.month != b.month then a.month > b.month
    else if a.day != b.day then a.day > b.day
    else if a.hour != b.hour then a.hour > b.hour
    else if a.minute != b.minute then a.minute > b.minute
    else if a.second != b.second then a.second > b.second
    else a.millis > b.millis
  }

  lemma IsAfterStrictOrder(a: Timestamp, b: Timestamp, c: Timestamp)
    ensures !IsAfter(a, a)
    ensures IsAfter(a, b) ==> !IsAfter(b, a)
    ensures IsAfter(a, b) && IsAfter(b, c) ==> IsAfter(a, c)
    ensures a != b ==> IsAfter(a, b) || IsAfter(b, a)
  {
  }

  /** Later than something that is not earlier than `u` means later than `u`. */
  lemma AfterBeyond(t: Timestamp, b: Timestamp, u: Timestamp)
    requires IsAfter(t, b) && !IsAfter(u, b)
    ensures IsAfter(t, u) && !IsAfter(u, t)
  {
    IsAfterStrictOrder(t, b, u);
    IsAfterStrictOrder(u, t, b);
    IsAfterStrictOrder(b, u, t);
  }

  const TimestampLength := 21

  predicate TimestampShape(s: string) {
    && |s| == TimestampLength
    && s[4] == '-' && s[7] == '-' && s[10] == 'T' && s[17] == '.'
    && AllDigits(s[0..4]) && AllDigits(s[5..7]) && AllDigits(s[8..10])
    && AllDigits(s[11..13]) && AllDigits(s[13..15]) && AllDigits(s[15..17]) && AllDigits(s[18..21])
  }

  /** The fields a well-shaped string spells, before range checking. */
  function Fields(s: string): Timestamp
    requires TimestampShape(s)
  {
    Timestamp(DecimalValue(s[0..4]), DecimalValue(s[5..7]), DecimalValue(s[8..10]),
              DecimalValue(s[11..13]), DecimalValue(s[13..15]), DecimalValue(s[15..17]),
              DecimalValue(s[18..21]))
  }

  /** parseDateTime with the pattern yyyy-MM-dd'T'HHmmss.SSS; None where Joda
      throws IllegalArgumentException. */
  function ParseTimestamp(s: string): (r: Option<Timestamp>)
    ensures r.Some? ==> Valid(r.value)
  {
    if TimestampShape(s) && Valid(Fields(s)) then Some(Fields(s)) else None
  }

  /** The time stamp as the scan CLI writes it into a log-file name. */
  function FormatTimestamp(t: Timestamp): (s: string)
    requires Valid(t)
    ensures |s| == TimestampLength
  {
    PadDecimal(t.year, 4) + "-" + PadDecimal(t.month, 2) + "-" + PadDecimal(t.day, 2) + "T"
    + PadDecimal(t.hour, 2) + PadDecimal(t.minute, 2) + PadDecimal(t.second, 2) + "." + PadDecimal(t.millis, 3)
  }

  lemma FormatSlices(t: Timestamp)
    requires Valid(t)
    ensures var s := FormatTimestamp(t);
      && s[0..4] == PadDecimal(t.year, 4) && s[4] == '-'
      && s[5..7] == PadDecimal(t.month, 2) && s[7] == '-'
      && s[8..10] == PadDecimal(t.day, 2) && s[10] == 'T'
      && s[11..13] == PadDecimal(t.hour, 2) && s[13..15] == PadDecimal(t.minute, 2)
      && s[15..17] == PadDecimal(t.second, 2) && s[17] == '.'
      && s[18..21] == PadDecimal(t.millis, 3)
  {
  }

  /** Every valid time is read back from its printed form. */
  lemma ParseFormat(t: Timestamp)
    requires Valid(t)
    ensures ParseTimestamp(FormatTimestamp(t)) == Some(t)
  {
    var s := FormatTimestamp(t);
    FormatSlices(t);
    assert Pow10(2) == 100 && Pow10(3) == 1000 && Pow10(4) == 10000;
    PadDecimalRoundTrip(t.year, 4);
    PadDecimalRoundTrip(t.month, 2);
    PadDecimalRoundTrip(t.day, 2);
    PadDecimalRoundTrip(t.hour, 2);
    PadDecimalRoundTrip(t.minute, 2);
    PadDecimalRoundTrip(t.second, 2);
    PadDecimalRoundTrip(t.millis, 3);
    assert Fields(s) == t;
  }

  /** The parser accepts only the printed form of the time it returns. */
  lemma FormatParse(s: string)
    requires ParseTimestamp(s).Some?
    ensures FormatTimestamp(ParseTimestamp(s).value) == s
  {
    var t := ParseTimestamp(s).value;
    DecimalValuePadRoundTrip(s[0..4]);
    DecimalValuePadRoundTrip(s[5..7]);
    DecimalValuePadRoundTrip(s[8..10]);
    DecimalValuePadRoundTrip(s[11..13]);
    DecimalValuePadRoundTrip(s[13..15]);
    DecimalValuePadRoundTrip(s[15..17]);
    DecimalValuePadRoundTrip(s[18..21]);
    FormatSlices(t);
    var f := FormatTimestamp(t);
    assert forall i :: 0 <= i < 21 ==> f[i] == s[i] by {
      forall i | 0 <= i < 21 ensures f[i] == s[i] {
        if i < 4 { assert f[i] == f[0..4][i]; }
        else if 5 <= i < 7 { assert f[i] == f[5..7][i - 5]; }
        else if 8 <= i < 10 { assert f[i] == f[8..10][i - 8]; }
        else if 11 <= i < 13 { assert f[i] == f[11..13][i - 11]; }
        else if 13 <= i < 15 { assert f[i] == f[13..15][i - 13]; }
        else if 15 <= i < 17 { assert f[i] == f[15..17][i - 15]; }
        else if 18 <= i { assert f[i] == f[18..21][i - 18]; }
      }
    }
  }

  // ------------------------------------------------------------ log names

  /** The text getLogFileForScan deletes from a log name: "<host>-<file>-". */
  function LogPrefix(host: string, fileName: string): (p: string)
    ensures |p| >= 2
  {
    host + "-" + fileName + "-"
  }

  /** Length of the zone-and-extension tail cut off before parsing. */
  const SuffixLength := 9

  /** The time stamp of one log name: every "<host>-<file>-" is deleted, the
      last nine characters are cut off, and the rest is parsed. A name too
      short to cut raises StringIndexOutOfBoundsException, an unparseable rest
      Joda's IllegalArgumentException. */
  function LogTime(name: string, fileName: string, host: string): (r: Result<Timestamp>)
    ensures r.Ok? ==> Valid(r.value)
  {
    var stripped := RemoveAll(name, LogPrefix(host, fileName));
    if |stripped| < SuffixLength then Err(IndexOutOfBounds)
    else match ParseTimestamp(stripped[..|stripped| - SuffixLength])
      case None => Err(IllegalArgument("Invalid format"))
      case Some(t) => Ok(t)
  }

  /** A name getLogFileForScan looks at: it contains both the target's file
      name and the host name. */
  predicate IsCandidate(name: string, fileName: string, host: string) {
    Contains(name, fileName) && Contains(name, host)
  }

  /** The name the scan CLI gives a log: host, file name, time, zone and extension. */
  function WrittenLogName(host: string, fileName: string, t: Timestamp, suffix: string): string
    requires Valid(t)
  {
    LogPrefix(host, fileName) + FormatTimestamp(t) + suffix
  }

  /** A name that starts with "<host>-<file>-" is a candidate for that file and host. */
  lemma PrefixedIsCandidate(host: string, fileName: string, rest: string)
    ensures IsCandidate(LogPrefix(host, fileName) + rest, fileName, host)
  {
    var name := LogPrefix(host, fileName) + rest;
    assert name == [] + host + ("-" + fileName + "-" + rest);
    ContainsInfix([], host, "-" + fileName + "-" + rest);
    assert name == (host + "-") + fileName + ("-" + rest);
    ContainsInfix(host + "-", fileName, "-" + rest);
  }

  /** A log named the way the CLI names it is a candidate for its target and host. */
  lemma WrittenLogIsCandidate(host: string, fileName: string, t: Timestamp, suffix: string)
    requires Valid(t)
    ensures IsCandidate(WrittenLogName(host, fileName, t, suffix), fileName, host)
  {
    PrefixedIsCandidate(host, fileName, FormatTimestamp(t) + suffix);
    assert WrittenLogName(host, fileName, t, suffix) == LogPrefix(host, fileName) + (FormatTimestamp(t) + suffix);
  }

  /** Deleting a leading prefix that does not recur and cutting the tail
      leaves the middle part. */
  lemma StripAndCut(prefix: string, middle: string, suffix: string)
    requires |prefix| > 0 && |suffix| == SuffixLength
    requires !Contains(middle + suffix, prefix)
    ensures var stripped := RemoveAll(prefix + middle + suffix, prefix);
      |stripped| >= SuffixLength && stripped[..|stripped| - SuffixLength] == middle
  {
    var rest := middle + suffix;
    assert prefix + middle + suffix == prefix + rest;
    RemoveAllLeading(prefix, rest);
  }

  /** A log named the way the CLI names it yields its own time, provided the
      "<host>-<file>-" prefix does not recur after the first one. */
  lemma WrittenLogTime(host: string, fileName: string, t: Timestamp, suffix: string)
    requires Valid(t) && |suffix| == SuffixLength
    requires !Contains(FormatTimestamp(t) + suffix, LogPrefix(host, fileName))
    ensures LogTime(WrittenLogName(host, fileName, t, suffix), fileName, host) == Ok(t)
  {
    StripAndCut(LogPrefix(host, fileName), FormatTimestamp(t), suffix);
    ParseFormat(t);
  }

  /** Such a log is read as a stamped entry with its own time. */
  lemma WrittenLogClassified(host: string, fileName: string, t: Timestamp, suffix: string)
    requires Valid(t) && |suffix| == SuffixLength
    requires !Contains(FormatTimestamp(t) + suffix, LogPrefix(host, fileName))
    ensures Classify(WrittenLogName(host, fileName, t, suffix), fileName, host) == Stamped(t)
  {
    WrittenLogIsCandidate(host, fileName, t, suffix);
    WrittenLogTime(host, fileName, t, suffix);
  }

  // ------------------------------------------------------------ the latest log

  /** What getLogFileForScan makes of one entry of the log folder. */
  datatype LogEntry = Other | Unreadable(error: Error) | Stamped(time: Timestamp)

  function Classify(name: string, fileName: string, host: string): (e: LogEntry)
    ensures e.Other? <==> !IsCandidate(name, fileName, host)
  {
    if !IsCandidate(name, fileName, host) then Other
    else match LogTime(name, fileName, host)
      case Err(err) => Unreadable(err)
      case Ok(t) => Stamped(t)
  }

  function ClassifyAll(names: seq<string>, fileName: string, host: string): (es: seq<LogEntry>)
    ensures |es| == |names|
    ensures forall j :: 0 <= j < |names| ==> es[j] == Classify(names[j], fileName, host)
  {
    seq(|names|, j requires 0 <= j < |names| => Classify(names[j], fileName, host))
  }

  /** The entry chosen so far and its time. */
  datatype Pick = Pick(index: nat, time: Timestamp)

  /** The entry kept after looking at entry `i`: the first candidate is taken
      unconditionally, a later one only when strictly after the kept one. */
  function NextBest(entries: seq<LogEntry>, i: nat, best: Option<Pick>): Option<Pick>
    requires i < |entries|
  {
    match entries[i]
    case Stamped(t) => if best.None? || IsAfter(t, best.value.time) then Some(Pick(i, t)) else best
    case _ => best
  }

  /** The loop of getLogFileForScan from entry `i` on; a candidate whose time
      cannot be read aborts it with that exception. */
  function Scan(entries: seq<LogEntry>, i: nat, best: Option<Pick>): Result<Option<Pick>>
    requires i <= |entries|
    decreases |entries| - i
  {
    if i == |entries| then Ok(best)
    else if entries[i].Unreadable? then Err(entries[i].error)
    else Scan(entries, i + 1, NextBest(entries, i, best))
  }

  /** getLogFileForScan over the listing of the log folder: the position of
      the chosen log, null when no entry qualifies, or the exception raised. */
  function LatestLog(names: seq<string>, fileName: string, host: string): Result<Option<nat>> {
    match Scan(ClassifyAll(names, fileName, host), 0, None)
    case Err(e) => Err(e)
    case Ok(None) => Ok(None)
    case Ok(Some(p)) => Ok(Some(p.index))
  }

  /** Entry `k` has the greatest time among the first `n` entries, and is
      strictly later than every time listed before it. */
  ghost predicate IsLatestAmong(entries: seq<LogEntry>, n: nat, k: nat)
    requires n <= |entries|
  {
    && k < n && entries[k].Stamped?
    && (forall j :: 0 <= j < n && entries[j].Stamped? ==> !IsAfter(entries[j].time, entries[k].time))
    && (forall j :: 0 <= j < k && entries[j].Stamped? ==> IsAfter(entries[k].time, entries[j].time))
  }

  /** What the loop knows after the first `i` entries. */
  ghost predicate BestSoFar(entries: seq<LogEntry>, i: nat, best: Option<Pick>)
    requires i <= |entries|
  {
    && (forall j :: 0 <= j < i ==> !entries[j].Unreadable?)
    && (best.None? <==> forall j :: 0 <= j < i ==> entries[j].Other?)
    && (best.Some? ==> IsLatestAmong(entries, i, best.value.index) && entries[best.value.index].time == best.value.time)
  }

  lemma NewerEntryBest(entries: seq<LogEntry>, i: nat, b: Pick)
    requires i < |entries| && BestSoFar(entries, i, Some(b))
    requires entries[i].Stamped? && IsAfter(entries[i].time, b.time)
    ensures BestSoFar(entries, i + 1, Some(Pick(i, entries[i].time)))
  {
    var t := entries[i].time;
    forall j | 0 <= j < i && entries[j].Stamped?
      ensures !IsAfter(entries[j].time, t) && IsAfter(t, entries[j].time)
    {
      AfterBeyond(t, b.time, entries[j].time);
    }
    IsAfterStrictOrder(t, t, t);
  }

  lemma StepKeepsBest(entries: seq<LogEntry>, i: nat, best: Option<Pick>)
    requires i < |entries| && BestSoFar(entries, i, best) && !entries[i].Unreadable?
    ensures BestSoFar(entries, i + 1, NextBest(entries, i, best))
  {
    if entries[i].Stamped? {
      var t := entries[i].time;
      if best.None? {
        IsAfterStrictOrder(t, t, t);
      } else if IsAfter(t, best.value.time) {
        NewerEntryBest(entries, i, best.value);
      }
    }
  }

  lemma {:induction false} ScanKeepsBest(entries: seq<LogEntry>, i: nat, best: Option<Pick>)
    requires i <= |entries| && BestSoFar(entries, i, best)
    ensures var r := Scan(entries, i, best);
      && (r.Err? <==> exists j :: i <= j < |entries| && entries[j].Unreadable?)
      && (r.Ok? ==> BestSoFar(entries, |entries|, r.value))
    decreases |entries| - i
  {
    if i < |entries| && !entries[i].Unreadable? {
      StepKeepsBest(entries, i, best);
      ScanKeepsBest(entries, i + 1, NextBest(entries, i, best));
    }
  }

  /** The loop's exception is that of the first unreadable entry. */
  lemma {:induction false} ScanStopsAtFirstUnreadable(entries: seq<LogEntry>, i: nat, best: Option<Pick>)
    requires i <= |entries|
    ensures var r := Scan(entries, i, best);
      r.Err? ==> exists j :: i <= j < |entries| && entries[j] == Unreadable(r.error)
                             && forall k :: i <= k < j ==> !entries[k].Unreadable?
    decreases |entries| - i
  {
    if i < |entries| && !entries[i].Unreadable? {
      ScanStopsAtFirstUnreadable(entries, i + 1, NextBest(entries, i, best));
    }
  }

  /** getLogFileForScan fails exactly when some qualifying log name cannot be
      read, with the exception of the first such name, returns null exactly when no name qualifies, and otherwise returns
      a qualifying log with the greatest time, the first one listed on ties. */
  lemma LatestLogSpec(names: seq<string>, fileName: string, host: string)
    ensures var r := LatestLog(names, fileName, host);
      && (r.Err? <==> exists j :: 0 <= j < |names| && Classify(names[j], fileName, host).Unreadable?)
      && (r.Err? ==> exists j :: 0 <= j < |names| && Classify(names[j], fileName, host) == Unreadable(r.error)
                                 && forall k :: 0 <= k < j ==> !Classify(names[k], fileName, host).Unreadable?)
      && (r == Ok(None) <==> forall j :: 0 <= j < |names| ==> !IsCandidate(names[j], fileName, host))
      && (r.Ok? && r.value.Some? ==>
            && IsLatestAmong(ClassifyAll(names, fileName, host), |names|, r.value.value)
            && IsCandidate(names[r.value.value], fileName, host))
  {
    var entries := ClassifyAll(names, fileName, host);
    ScanKeepsBest(entries, 0, None);
    ScanStopsAtFirstUnreadable(entries, 0, None);
  }

  /** getLogFileForScan with its host-name lookup, which may throw
      (UnknownHostException). The host is looked up for the first name that
      contains the file name, so a failing lookup surfaces exactly when such
      a name is listed; otherwise the loop goes on as LatestLog. */
  function LatestLogOnHost(names: seq<string>, fileName: string, host: Result<string>): (r: Result<Option<nat>>)
    ensures host.Ok? ==> r == LatestLog(names, fileName, host.value)
    ensures host.Err? ==>
      && (r.Err? <==> exists i :: 0 <= i < |names| && Contains(names[i], fileName))
      && (r.Err? ==> r.error == host.error)
      && (r.Ok? ==> r == Ok(None))
    ensures r.Ok? && r.value.Some? ==>
      && r.value.value < |names|
      && IsCandidate(names[r.value.value], fileName, host.value)
  {
    match host
    case Err(e) =>
      if exists i :: 0 <= i < |names| && Contains(names[i], fileName) then Err(e) else Ok(None)
    case Ok(h) =>
      LatestLogSpec(names, fileName, h);
      LatestLog(names, fileName, h)
  }

  /** Of two stamped entries, the later one is chosen; on equal times the
      one listed first is kept. */
  lemma LatestOfTwo(n1: string, n2: string, fileName: string, host: string, t1: Timestamp, t2: Timestamp)
    requires Classify(n1, fileName, host) == Stamped(t1) && Classify(n2, fileName, host) == Stamped(t2)
    ensures LatestLog([n1, n2], fileName, host) == Ok(Some(if IsAfter(t2, t1) then 1 else 0))
  {
    var entries := ClassifyAll([n1, n2], fileName, host);
    assert entries == [Stamped(t1), Stamped(t2)];
    var p := if IsAfter(t2, t1) then Pick(1, t2) else Pick(0, t1);
    assert Scan(entries, 2, Some(p)) == Ok(Some(p));
    assert Scan(entries, 1, Some(Pick(0, t1))) == Ok(Some(p));
  }

  /** Of two logs written for the same target on the same host, the newer one
      is chosen; on equal times the one listed first is kept. */
  lemma NewerLogChosen(host: string, fileName: string, t1: Timestamp, t2: Timestamp, s1: string, s2: string)
    requires Valid(t1) && Valid(t2) && |s1| == SuffixLength && |s2| == SuffixLength
    requires !Contains(FormatTimestamp(t1) + s1, LogPrefix(host, fileName))
    requires !Contains(FormatTimestamp(t2) + s2, LogPrefix(host, fileName))
    ensures var names := [WrittenLogName(host, fileName, t1, s1), WrittenLogName(host, fileName, t2, s2)];
      LatestLog(names, fileName, host) == Ok(Some(if IsAfter(t2, t1) then 1 else 0))
  {
    WrittenLogClassified(host, fileName, t1, s1);
    WrittenLogClassified(host, fileName, t2, s2);
    LatestOfTwo(WrittenLogName(host, fileName, t1, s1), WrittenLogName(host, fileName, t2, s2), fileName, host, t1, t2);
  }
}

=== FILE: mapping.dfy ===
/** PostBuildHubiScan.doScanMapping: resolving the Hub project and release and
    linking the new scan locations to the release. The Hub's answers are
    given; each request the method makes is recorded, in order. */
module Mapping {
  import opened Common
  import opened Strings

  /** The Hub's answers as doScanMapping sees them; an Err is the exception
      (BDRestException, IOException) the REST call throws.
      projectIds: the ids of the projects matching a name (None for null);
      releaseId: the id of the named release of a project (blank for null or none);
      scanIds: the ids of the scan locations of the targets for a release
        (None for a null list);
      mapScans: the exception linking scans to a release throws, if any. */
  datatype Catalog = Catalog(
    projectIds: string -> Result<Option<seq<string>>>,
    releaseId: (string, string) -> Result<string>,
    scanIds: (seq<string>, string) -> Result<Option<seq<string>>>,
    mapScans: (seq<string>, string) -> Option<Error>)

  /** A request to the Hub. */
  datatype Call =
    | FindProjects(projectName: string)
    | FindRelease(projectId: string, releaseName: string)
    | FindScanLocations(targets: seq<string>, releaseId: string)
    | MapScans(scanIds: seq<string>, releaseId: string)

  /** How a mapping that raised nothing ended: the scans were linked, or the
      Hub reported no scan ids (already mapped, or not found). */
  datatype MappingOutcome = Mapped(releaseId: string, scanIds: seq<string>) | NothingToMap(releaseId: string)

  datatype MappingRun = MappingRun(outcome: Result<MappingOutcome>, calls: seq<Call>)

  const ProjectNotFoundMessage := "The specified Project could not be found."
  const ProjectAmbiguousMessage := "More than one Project was found with the same name."
  const ReleaseNotFoundMessage := "The specified Release could not be found in the Project."

  /** The project id doScanMapping goes on with: the configured duplicate id
      when there is one, otherwise the single id matching the name. */
  function ResolveProject(projectName: string, duplicateProjectId: string, catalog: Catalog): (r: Result<string>)
    ensures !IsBlank(duplicateProjectId) ==> r == Ok(duplicateProjectId)
    ensures IsBlank(duplicateProjectId) && catalog.projectIds(projectName).Err? ==>
      r == Err(catalog.projectIds(projectName).error)
    ensures IsBlank(duplicateProjectId) && catalog.projectIds(projectName).Ok? ==>
      var ids := catalog.projectIds(projectName).value;
      && (r.Ok? <==> ids.Some? && |ids.value| == 1)
      && (r.Ok? ==> r.value == ids.value[0])
      && ((ids.None? || ids.value == []) ==> r == Err(PluginError(ProjectNotFoundMessage)))
      && (ids.Some? && |ids.value| > 1 ==> r == Err(PluginError(ProjectAmbiguousMessage)))
  {
    if !IsBlank(duplicateProjectId) then Ok(duplicateProjectId)
    else
      var ids :- catalog.projectIds(projectName);
      if ids.None? || ids.value == [] then Err(PluginError(ProjectNotFoundMessage))
      else if |ids.value| > 1 then Err(PluginError(ProjectAmbiguousMessage))
      else Ok(ids.value[0])
  }

  /** The project lookup is only made when no duplicate id is configured. */
  function ProjectCalls(projectName: string, duplicateProjectId: string): seq<Call> {
    if !IsBlank(duplicateProjectId) then [] else [FindProjects(projectName)]
  }

  /** Every answer of the Hub after the project was resolved to `p` lets the
      mapping go on: the release is found, the scan-id list is not null, and
      linking a non-empty list does not fail. */
  predicate HubCooperates(p: string, releaseName: string, targets: seq<string>, catalog: Catalog) {
    var rel := catalog.releaseId(p, releaseName);
    && rel.Ok? && !IsBlank(rel.value)
    && var ids := catalog.scanIds(targets, rel.value);
       && ids.Ok? && ids.value.Some?
       && (ids.value.value != [] ==> catalog.mapScans(ids.value.value, rel.value).None?)
  }

  /** doScanMapping. */
  function DoScanMapping(projectName: string, releaseName: string, duplicateProjectId: string,
                         targets: seq<string>, catalog: Catalog): (r: MappingRun)
    // the project lookup happens exactly when no duplicate id is configured
    ensures (exists c :: c in r.calls && c.FindProjects?) <==> IsBlank(duplicateProjectId)
    ensures IsBlank(duplicateProjectId) ==> r.calls[0] == FindProjects(projectName)
    // an unresolved project stops everything after the lookup
    ensures ResolveProject(projectName, duplicateProjectId, catalog).Err? ==>
      r == MappingRun(Err(ResolveProject(projectName, duplicateProjectId, catalog).error), [FindProjects(projectName)])
    // a resolved project is asked for the release next; the mapping succeeds
    // exactly when the Hub cooperates, and then for the named release
    ensures ResolveProject(projectName, duplicateProjectId, catalog).Ok? ==>
      var p := ResolveProject(projectName, duplicateProjectId, catalog).value;
      var lookup := ProjectCalls(projectName, duplicateProjectId);
      var rel := catalog.releaseId(p, releaseName);
      && |lookup| < |r.calls|
      && r.calls[..|lookup| + 1] == lookup + [FindRelease(p, releaseName)]
      && (r.outcome.Ok? <==> HubCooperates(p, releaseName, targets, catalog))
      && (r.outcome.Ok? ==> r.outcome.value.releaseId == rel.value)
    ensures r.outcome.Ok? ==>
      var rid := r.outcome.value.releaseId;
      && !IsBlank(rid)
      && FindScanLocations(targets, rid) in r.calls
      && catalog.scanIds(targets, rid).Ok? && catalog.scanIds(targets, rid).value.Some?
      && (r.outcome.value.Mapped? <==> catalog.scanIds(targets, rid).value.value != [])
      && (r.outcome.value.Mapped? ==>
            r.outcome.value.scanIds == catalog.scanIds(targets, rid).value.value
            && r.calls[|r.calls| - 1] == MapScans(r.outcome.value.scanIds, rid))
  {
    var lookup := ProjectCalls(projectName, duplicateProjectId);
    match ResolveProject(projectName, duplicateProjectId, catalog)
    case Err(e) =>
      assert lookup[0] in lookup;
      MappingRun(Err(e), lookup)
    case Ok(p) =>
      var asked := lookup + [FindRelease(p, releaseName)];
      assert asked[..|lookup| + 1] == asked;
      assert IsBlank(duplicateProjectId) ==> asked[0] in asked;
      match catalog.releaseId(p, releaseName)
      case Err(e) => MappingRun(Err(e), asked)
      case Ok(rid) =>
        if IsBlank(rid) then MappingRun(Err(PluginError(ReleaseNotFoundMessage)), asked)
        else
          var located := asked + [FindScanLocations(targets, rid)];
          assert located[..|lookup| + 1] == asked;
          assert located[|located| - 1] in located;
          assert IsBlank(duplicateProjectId) ==> located[0] in located;
          match catalog.scanIds(targets, rid)
          case Err(e) => MappingRun(Err(e), located)
          case Ok(None) => MappingRun(Err(NullPointer), located)
          case Ok(Some(ids)) =>
            if ids == [] then MappingRun(Ok(NothingToMap(rid)), located)
            else
              var calls := located + [MapScans(ids, rid)];
              assert calls[..|lookup| + 1] == asked;
              assert calls[|calls| - 1] in calls;
              assert located[|located| - 1] in calls;
              assert IsBlank(duplicateProjectId) ==> calls[0] in calls;
              match catalog.mapScans(ids, rid)
              case Some(e) => MappingRun(Err(e), calls)
              case None => MappingRun(Ok(Mapped(rid, ids)), calls)
  }

  /** Each failing answer after the project was resolved ends the run with
      its exception, after exactly the requests made up to it. */
  lemma MappingStopsAtFailure(projectName: string, releaseName: string, duplicateProjectId: string,
                              targets: seq<string>, catalog: Catalog)
    requires ResolveProject(projectName, duplicateProjectId, catalog).Ok?
    ensures var r := DoScanMapping(projectName, releaseName, duplicateProjectId, targets, catalog);
      var p := ResolveProject(projectName, duplicateProjectId, catalog).value;
      var asked := ProjectCalls(projectName, duplicateProjectId) + [FindRelease(p, releaseName)];
      var rel := catalog.releaseId(p, releaseName);
      && (rel.Err? ==> r == MappingRun(Err(rel.error), asked))
      && (rel.Ok? && IsBlank(rel.value) ==> r == MappingRun(Err(PluginError(ReleaseNotFoundMessage)), asked))
      && (rel.Ok? && !IsBlank(rel.value) ==>
            var located := asked + [FindScanLocations(targets, rel.value)];
            var ids := catalog.scanIds(targets, rel.value);
            && (ids.Err? ==> r == MappingRun(Err(ids.error), located))
            && (ids == Ok(None) ==> r == MappingRun(Err(NullPointer), located))
            && (ids == Ok(Some([])) ==> r == MappingRun(Ok(NothingToMap(rel.value)), located))
            && (ids.Ok? && ids.value.Some? && ids.value.value != [] ==>
                  && r.calls == located + [MapScans(ids.value.value, rel.value)]
                  && (catalog.mapScans(ids.value.value, rel.value).Some? ==>
                        r.outcome == Err(catalog.mapScans(ids.value.value, rel.value).value))))
  {
  }

  /** Scans are linked exactly when the project and a release resolve and
      the Hub reports a non-empty list of scan ids for them. */
  lemma MappingLinksReportedScans(projectName: string, releaseName: string, duplicateProjectId: string,
                                  targets: seq<string>, catalog: Catalog)
    ensures var r := DoScanMapping(projectName, releaseName, duplicateProjectId, targets, catalog);
      (exists c :: c in r.calls && c.MapScans?) <==>
        exists p, rid, ids :: ResolveProject(projectName, duplicateProjectId, catalog) == Ok(p)
          && catalog.releaseId(p, releaseName) == Ok(rid) && !IsBlank(rid)
          && catalog.scanIds(targets, rid) == Ok(Some(ids)) && ids != []
  {
    var r := DoScanMapping(projectName, releaseName, duplicateProjectId, targets, catalog);
    var resolved := ResolveProject(projectName, duplicateProjectId, catalog);
    if resolved.Ok? {
      MappingStopsAtFailure(projectName, releaseName, duplicateProjectId, targets, catalog);
      var p := resolved.value;
      var rel := catalog.releaseId(p, releaseName);
      if rel.Ok? && !IsBlank(rel.value) {
        var ids := catalog.scanIds(targets, rel.value);
        if ids.Ok? && ids.value.Some? && ids.value.value != [] {
          assert r.calls[|r.calls| - 1] == MapScans(ids.value.value, rel.value);
          assert r.calls[|r.calls| - 1] in r.calls;
        }
      }
    }
  }

  /** A configured duplicate id is used as it is: the name is never looked up
      and the release is looked for in that project. */
  lemma DuplicateIdSkipsLookup(projectName: string, releaseName: string, duplicateProjectId: string,
                               targets: seq<string>, catalog: Catalog)
    requires !IsBlank(duplicateProjectId)
    ensures var r := DoScanMapping(projectName, releaseName, duplicateProjectId, targets, catalog);
      && r.calls[0] == FindRelease(duplicateProjectId, releaseName)
      && forall c :: c in r.calls ==> !c.FindProjects?
  {
  }

  /** Two projects with the same name are never resolved to one of them. */
  lemma AmbiguousNameRefused(projectName: string, releaseName: string, targets: seq<string>,
                             catalog: Catalog, a: string, b: string)
    requires catalog.projectIds(projectName) == Ok(Some([a, b]))
    ensures DoScanMapping(projectName, releaseName, "", targets, catalog).outcome
              == Err(PluginError(ProjectAmbiguousMessage))
  {
  }

  /** Run again against a Hub that answers the same for the project and the
      release and reports no unmapped scan ids for the release the first run
      found, the second run links nothing and asks for no link. */
  lemma SecondRunMapsNothing(projectName: string, releaseName: string, duplicateProjectId: string,
                             targets: seq<string>, before: Catalog, after: Catalog)
    requires after.projectIds == before.projectIds && after.releaseId == before.releaseId
    requires DoScanMapping(projectName, releaseName, duplicateProjectId, targets, before).outcome.Ok?
    requires after.scanIds(targets, DoScanMapping(projectName, releaseName, duplicateProjectId, targets, before)
                                      .outcome.value.releaseId) == Ok(Some([]))
    ensures var r := DoScanMapping(projectName, releaseName, duplicateProjectId, targets, after);
      && r.outcome == Ok(NothingToMap(DoScanMapping(projectName, releaseName, duplicateProjectId, targets, before).outcome.value.releaseId))
      && forall c :: c in r.calls ==> !c.MapScans?
  {
    var first := DoScanMapping(projectName, releaseName, duplicateProjectId, targets, before);
    assert ResolveProject(projectName, duplicateProjectId, after) == ResolveProject(projectName, duplicateProjectId, before);
    var p := ResolveProject(projectName, duplicateProjectId, before).value;
    assert before.releaseId(p, releaseName) == Ok(first.outcome.value.releaseId);
    MappingStopsAtFailure(projectName, releaseName, duplicateProjectId, targets, after);
  }
}

=== FILE: strings.dfy ===
/** The java.lang.String operations the plugin relies on (startsWith, endsWith,
    contains, replace with the empty string, Integer.toString) and fixed-width
    decimal fields, each with the facts the rest of the model needs, and
    plexus-utils StringUtils.isEmpty. */
module Strings {
  import opened Common

  /** StringUtils.isEmpty of plexus-utils on a non-null string: nothing is
      left once String.trim has removed every character up to ' '. A null
      string is modelled as "" and is blank too. */
  predicate IsBlank(s: string) {
    forall i :: 0 <= i < |s| ==> s[i] <= ' '
  }

  predicate StartsWith(s: string, p: string) {
    |p| <= |s| && s[..|p|] == p
  }

  predicate EndsWith(s: string, p: string) {
    |p| <= |s| && s[|s| - |p|..] == p
  }

  /** The elements of a suffix, one by one. */
  lemma SuffixAt<T>(s: seq<T>, t: seq<T>)
    requires |t| <= |s| && s[|s| - |t|..] == t
    ensures forall i :: 0 <= i < |t| ==> s[|s| - |t| + i] == t[i]
  {
    forall i | 0 <= i < |t| ensures s[|s| - |t| + i] == t[i] {
      assert s[|s| - |t|..][i] == t[i];
    }
  }

  /** String.contains: `p` occurs somewhere in `s`. */
  predicate Contains(s: string, p: string)
    decreases |s|
  {
    StartsWith(s, p) || (|s| > 0 && Contains(s[1..], p))
  }

  lemma {:induction false} ContainsInfix(a: string, p: string, b: string)
    ensures Contains(a + p + b, p)
    decreases |a|
  {
    if a == [] {
      assert a + p + b == p + b;
      assert (p + b)[..|p|] == p;
    } else {
      assert (a + p + b)[1..] == a[1..] + p + b;
      ContainsInfix(a[1..], p, b);
    }
  }

  /** An occurrence needs room: a needle longer than the haystack never occurs. */
  lemma {:induction false} ContainsNeedsRoom(s: string, p: string)
    requires Contains(s, p)
    ensures |p| <= |s|
    decreases |s|
  {
    if !StartsWith(s, p) {
      ContainsNeedsRoom(s[1..], p);
    }
  }

  /** An occurrence in the tail is an occurrence in the whole string. */
  lemma {:induction false} ContainsSuffix(s: string, k: nat, p: string)
    requires k <= |s| && Contains(s[k..], p)
    ensures Contains(s, p)
    decreases k
  {
    if k > 0 {
      assert s[1..][k - 1..] == s[k..];
      ContainsSuffix(s[1..], k - 1, p);
    }
  }

  /** String.replace(p, ""): every occurrence of `p`, found left to right
      without overlap, is deleted. */
  function RemoveAll(s: string, p: string): (r: string)
    requires |p| > 0
    ensures |r| <= |s|
    ensures !Contains(s, p) ==> r == s
    decreases |s|
  {
    if |s| == 0 then s
    else if StartsWith(s, p) then RemoveAll(s[|p|..], p)
    else [s[0]] + RemoveAll(s[1..], p)
  }

  /** A leading occurrence is deleted and the scan resumes right after it. */
  lemma RemoveAllLeading(p: string, t: string)
    requires |p| > 0
    ensures RemoveAll(p + t, p) == RemoveAll(t, p)
  {
    assert (p + t)[..|p|] == p;
    assert (p + t)[|p|..] == t;
  }

  // ---------------------------------------------------------------- decimals

  predicate IsDigit(c: char) {
    '0' <= c <= '9'
  }

  predicate AllDigits(s: string) {
    forall i :: 0 <= i < |s| ==> IsDigit(s[i])
  }

  function DigitChar(d: nat): (c: char)
    requires d < 10
    ensures IsDigit(c)
  {
    ('0' as int + d) as char
  }

  function DigitValue(c: char): (d: nat)
    requires IsDigit(c)
    ensures d < 10 && DigitChar(d) == c
  {
    c as int - '0' as int
  }

  function Pow10(n: nat): (r: nat)
    ensures r >= 1
  {
    if n == 0 then 1 else 10 * Pow10(n - 1)
  }

  /** The number a string of decimal digits denotes (leading zeros allowed). */
  function DecimalValue(s: string): (v: nat)
    requires AllDigits(s)
    ensures v < Pow10(|s|)
  {
    if s == [] then 0
    else DecimalValue(s[..|s| - 1]) * 10 + DigitValue(s[|s| - 1])
  }

  /** The shortest decimal rendering of a natural number. */
  function NatToDecimal(n: nat): (s: string)
    ensures |s| > 0 && AllDigits(s)
    ensures |s| > 1 ==> s[0] != '0'
  {
    if n < 10 then [DigitChar(n)] else NatToDecimal(n / 10) + [DigitChar(n % 10)]
  }

  /** Integer.toString: a minus sign for negative numbers, then the digits. */
  function IntToString(n: int): (s: string)
    ensures |s| > 0
  {
    if n < 0 then "-" + NatToDecimal(-n) else NatToDecimal(n)
  }

  /** Integer.parseInt restricted to the renderings Integer.toString produces. */
  function ParseInt(s: string): (r: Option<int>)
    ensures r.Some? ==> |s| > 0
  {
    if |s| > 0 && s[0] == '-' then
      if |s| > 1 && AllDigits(s[1..]) then Some(-(DecimalValue(s[1..]) as int)) else None
    else if |s| > 0 && AllDigits(s) then Some(DecimalValue(s))
    else None
  }

  lemma {:induction false} NatToDecimalRoundTrip(n: nat)
    ensures DecimalValue(NatToDecimal(n)) == n
    decreases n
  {
    if n >= 10 {
      NatToDecimalRoundTrip(n / 10);
      var s := NatToDecimal(n / 10) + [DigitChar(n % 10)];
      assert s[..|s| - 1] == NatToDecimal(n / 10);
    }
  }

  /** Integer.toString is read back by Integer.parseInt. */
  lemma IntToStringRoundTrip(n: int)
    ensures ParseInt(IntToString(n)) == Some(n)
  {
    var s := IntToString(n);
    if n < 0 {
      var d := NatToDecimal(-n);
      assert s == "-" + d && s[0] == '-';
      assert s[1..] == d;
      NatToDecimalRoundTrip(-n);
    } else {
      assert IsDigit(s[0]);
      NatToDecimalRoundTrip(n);
    }
  }

  /** Exactly `width` decimal digits of `n`, zero-padded on the left (Joda's
      fixed-width printing of a date field). */
  function PadDecimal(n: nat, width: nat): (s: string)
    ensures |s| == width && AllDigits(s)
  {
    if width == 0 then [] else PadDecimal(n / 10, width - 1) + [DigitChar(n % 10)]
  }

  lemma {:induction false} PadDecimalRoundTrip(n: nat, width: nat)
    requires n < Pow10(width)
    ensures DecimalValue(PadDecimal(n, width)) == n
    decreases width
  {
    if width > 0 {
      PadDecimalRoundTrip(n / 10, width - 1);
      var s := PadDecimal(n, width);
      assert s[..|s| - 1] == PadDecimal(n / 10, width - 1);
    }
  }

  lemma {:induction false} DecimalValuePadRoundTrip(s: string)
    requires AllDigits(s)
    ensures PadDecimal(DecimalValue(s), |s|) == s
    decreases |s|
  {
    if s != [] {
      var init := s[..|s| - 1];
      var d := DigitValue(s[|s| - 1]);
      var v := DecimalValue(init) * 10 + d;
      assert v / 10 == DecimalValue(init) && v % 10 == d;
      DecimalValuePadRoundTrip(init);
      assert s == init + [s[|s| - 1]];
    }
  }
}

=== FILE: targets.dfy ===
/** Scan-target resolution (the target loop of PostBuildHubiScan.perform) and
    the workspace check of PostBuildHubiScan.validateScanTargets. */
module Targets {
  import opened Common
  import opened Strings

  /** One configured scan job (IScanJobs); a null target is the empty string. */
  datatype ScanJob = ScanJob(scanTarget: string)

  predicate IsSeparator(c: char) {
    c == '/' || c == '\\'
  }

  predicate EndsWithSeparator(t: string) {
    |t| > 0 && IsSeparator(t[|t| - 1])
  }

  /** The target with one trailing "/" or "\" removed, if it has one. */
  function DropTrailingSeparator(t: string): (r: string)
    ensures EndsWithSeparator(t) ==> r + [t[|t| - 1]] == t
    ensures !EndsWithSeparator(t) ==> r == t
  {
    if EndsWithSeparator(t) then t[..|t| - 1] else t
  }

  /** What is put between the working directory and a non-empty target: nothing
      when the target already starts with a separator, "/" otherwise. */
  function Joint(target: string): string {
    if |target| > 0 && IsSeparator(target[0]) then "" else "/"
  }

  /** The scan target built for one job under the working directory `wd`. */
  function ResolveTarget(wd: string, target: string): (r: string)
    ensures StartsWith(r, wd)
    ensures IsBlank(target) ==> r == wd
    ensures !IsBlank(target) ==>
      var head := wd + Joint(target);
      && StartsWith(r, head)
      && (if EndsWithSeparator(target)
          then r[|head|..] + [target[|target| - 1]] == target
          else r[|head|..] == target)
  {
    if IsBlank(target) then wd
    else
      var r := wd + Joint(target) + DropTrailingSeparator(target);
      assert r[..|wd|] == wd;
      assert r[..|wd + Joint(target)|] == wd + Joint(target);
      assert r[|wd + Joint(target)|..] == DropTrailingSeparator(target);
      r
  }

  /** One target per job, in job order. */
  function ResolveTargets(wd: string, jobs: seq<ScanJob>): (r: seq<string>)
    ensures |r| == |jobs|
    ensures forall i :: 0 <= i < |jobs| ==> r[i] == ResolveTarget(wd, jobs[i].scanTarget)
  {
    seq(|jobs|, i requires 0 <= i < |jobs| => ResolveTarget(wd, jobs[i].scanTarget))
  }

  /** A job whose target is empty or only white space scans the working
      directory itself, wherever it stands in the job list and whatever the
      other jobs say. */
  lemma BlankTargetIsWorkspace(wd: string, jobs: seq<ScanJob>, i: nat)
    requires i < |jobs| && IsBlank(jobs[i].scanTarget)
    ensures ResolveTargets(wd, jobs)[i] == wd
  {
  }

  /** Only one trailing separator is dropped: a target ending in two keeps one. */
  lemma OnlyOneTrailingSeparatorDropped(wd: string, t: string)
    requires |t| > 0
    ensures EndsWith(ResolveTarget(wd, t + "//"), "/")
  {
    var target := t + "//";
    assert target[|target| - 1] == '/';
    var r := ResolveTarget(wd, target);
    var head := wd + Joint(target);
    assert r[|head|..] + [target[|target| - 1]] == target;
    assert r[|head|..] == t + "/";
    assert r == head + (t + "/");
  }

  /** A target of spaces is blank and scans the working directory; any other
      target is kept with its spaces. */
  lemma WhiteSpaceInTargets()
    ensures ResolveTarget("/ws", "  ") == "/ws"
    ensures ResolveTarget("/ws", " src ") == "/ws/ src "
  {
    assert " src "[1] == 's';
  }

  /** A leading and a trailing "/" are each absorbed once. */
  lemma ResolveLeadingAndTrailingSlash()
    ensures ResolveTarget("/ws", "/src/") == "/ws/src"
  {
  }

  // ------------------------------------------------------- validateScanTargets

  /** What validateScanTargets learns about a path, each answer or the
      exception (IOException, InterruptedException) its call throws:
      canonical: java.io.File.getCanonicalPath, computed in the Jenkins
        master's JVM from the target string;
      size: FilePath.length() on the build node (the size in bytes);
      present: FilePath.exists() on the build node. */
  datatype FileFacts = FileFacts(canonical: string -> Result<string>, size: string -> Result<int>,
                                 present: string -> Result<bool>)

  /** No two separators in a row. */
  predicate NoDoubleSlash(p: string) {
    forall i :: 0 <= i < |p| - 1 ==> !(p[i] == '/' && p[i + 1] == '/')
  }

  /** Every run of separators cut down to one. */
  function CollapseSlashes(p: string): (r: string)
    ensures |r| <= |p|
    ensures p != [] ==> r != [] && r[0] == p[0] && r[|r| - 1] == p[|p| - 1]
    ensures NoDoubleSlash(r)
    ensures NoDoubleSlash(p) ==> r == p
  {
    if |p| <= 1 then p
    else if p[0] == '/' && p[1] == '/' then CollapseSlashes(p[1..])
    else
      var rest := CollapseSlashes(p[1..]);
      assert NoDoubleSlash(p) ==> NoDoubleSlash(p[1..]) by {
        if NoDoubleSlash(p) {
          forall i | 0 <= i < |p[1..]| - 1 ensures !(p[1..][i] == '/' && p[1..][i + 1] == '/') {
            assert p[1..][i] == p[i + 1] && p[1..][i + 1] == p[i + 2];
          }
        }
      }
      var r := [p[0]] + rest;
      assert forall i :: 1 <= i < |r| ==> r[i] == rest[i - 1];
      r
  }

  /** The path java.io.File keeps for a string on a Unix machine: runs of
      separators collapsed and a trailing separator dropped, "/" excepted. */
  function NormalizePath(p: string): (r: string)
    ensures NoDoubleSlash(r)
    ensures |r| > 1 ==> r[|r| - 1] != '/'
    ensures NoDoubleSlash(p) && (|p| <= 1 || p[|p| - 1] != '/') ==> r == p
    ensures NoDoubleSlash(p) && |p| > 1 && p[|p| - 1] == '/' ==> r == p[..|p| - 1]
    ensures (p == []) == (r == [])
  {
    var c := CollapseSlashes(p);
    if |c| > 1 && c[|c| - 1] == '/' then
      assert c[|c| - 2] != '/';
      c[..|c| - 1]
    else c
  }

  /** A double separator anywhere collapses to one. */
  lemma {:induction false} CollapseDoubleSlash(x: string, y: string)
    ensures CollapseSlashes(x + "//" + y) == CollapseSlashes(x + "/" + y)
    decreases |x|
  {
    var p, q := x + "//" + y, x + "/" + y;
    if x == [] {
      assert p[1..] == q;
    } else {
      assert p[0] == q[0] == x[0];
      assert p[1] == q[1] == if |x| == 1 then '/' else x[1];
      assert p[1..] == x[1..] + "//" + y;
      assert q[1..] == x[1..] + "/" + y;
      CollapseDoubleSlash(x[1..], y);
    }
  }

  /** A character that does not make a double separator is kept after the
      collapsed path. */
  lemma {:induction false} CollapseAppend(p: string, c: char)
    requires p != [] && !(p[|p| - 1] == '/' && c == '/')
    ensures CollapseSlashes(p + [c]) == CollapseSlashes(p) + [c]
    decreases |p|
  {
    var q := p + [c];
    if |p| == 1 {
      assert q[0] == p[0] && q[1..] == [c];
      assert p == [p[0]];
    } else {
      assert q[0] == p[0] && q[1] == p[1];
      assert q[1..] == p[1..] + [c];
      assert p[1..][|p[1..]| - 1] == p[|p| - 1];
      CollapseAppend(p[1..], c);
    }
  }

  /** "a//b" names the same file as "a/b". */
  lemma NormalizeDoubleSlash(x: string, y: string)
    ensures NormalizePath(x + "//" + y) == NormalizePath(x + "/" + y)
  {
    CollapseDoubleSlash(x, y);
  }

  /** "a/" names the same file as "a", and "//" the same as "/". */
  lemma NormalizeTrailingSlash(p: string)
    requires p != []
    ensures NormalizePath(p + "/") == NormalizePath(p)
  {
    if p[|p| - 1] == '/' {
      var x := p[..|p| - 1];
      assert x + "//" + [] == p + "/";
      assert x + "/" + [] == p;
      NormalizeDoubleSlash(x, []);
    } else {
      CollapseAppend(p, '/');
    }
  }

  /** Normalising a second time changes nothing. */
  lemma NormalizeIdempotent(p: string)
    ensures NormalizePath(NormalizePath(p)) == NormalizePath(p)
  {
  }

  /** The path the check looks at: the canonical path when a channel to the
      node is available, the java.io.File form of the target otherwise. */
  function ScanPath(fs: FileFacts, channel: bool, target: string): Result<string> {
    if channel then fs.canonical(target) else Ok(NormalizePath(target))
  }

  const OutsideWorkspaceMessage := "Can not scan targets outside of the workspace."
  const TargetMissingMessage := "Scan target could not be found : "

  /** The outside-the-workspace test as the source writes it: the size test,
      then "not equal to", then "does not contain" the working directory. */
  predicate EscapesAsWritten(wd: string, path: string, size: int) {
    size <= |wd| && wd != path && !Contains(path, wd)
  }

  /** Every call on the target answers, the workspace test passes and the
      file exists. */
  predicate Accepted(wd: string, channel: bool, fs: FileFacts, target: string) {
    var p := ScanPath(fs, channel, target);
    && p.Ok? && fs.size(p.value).Ok?
    && !EscapesAsWritten(wd, p.value, fs.size(p.value).value)
    && fs.present(p.value) == Ok(true)
  }

  /** The exception a rejected target raises, in evaluation order: the
      canonical path, the size, the workspace test, the existence test. */
  function Rejection(wd: string, channel: bool, fs: FileFacts, target: string): Error {
    var p := ScanPath(fs, channel, target);
    if p.Err? then p.error
    else if fs.size(p.value).Err? then fs.size(p.value).error
    else if EscapesAsWritten(wd, p.value, fs.size(p.value).value) then HubConfiguration(OutsideWorkspaceMessage)
    else if fs.present(p.value).Err? then fs.present(p.value).error
    else IOError(TargetMissingMessage + p.value)
  }

  /** validateScanTargets: true when every target passes, otherwise the
      exception of the first target that fails. */
  function ValidateScanTargets(wd: string, channel: bool, fs: FileFacts, targets: seq<string>): (r: Result<bool>)
    ensures r.Ok? ==> r.value
    ensures r.Ok? <==> forall t :: t in targets ==> Accepted(wd, channel, fs, t)
    ensures r.Err? ==>
      exists i :: 0 <= i < |targets|
        && !Accepted(wd, channel, fs, targets[i])
        && (forall j :: 0 <= j < i ==> Accepted(wd, channel, fs, targets[j]))
        && r.error == Rejection(wd, channel, fs, targets[i])
  {
    if targets == [] then Ok(true)
    else if !Accepted(wd, channel, fs, targets[0]) then Err(Rejection(wd, channel, fs, targets[0]))
    else
      var rest := ValidateScanTargets(wd, channel, fs, targets[1..]);
      assert forall t :: t in targets ==> t == targets[0] || t in targets[1..];
      if rest.Err? then
        var i :| 0 <= i < |targets[1..]|
          && !Accepted(wd, channel, fs, targets[1..][i])
          && (forall j :: 0 <= j < i ==> Accepted(wd, channel, fs, targets[1..][j]))
          && rest.error == Rejection(wd, channel, fs, targets[1..][i]);
        assert forall j :: 0 <= j < i + 1 ==> Accepted(wd, channel, fs, targets[j]) by {
          forall j | 0 <= j < i + 1 ensures Accepted(wd, channel, fs, targets[j]) {
            if j > 0 {
              assert targets[j] == targets[1..][j - 1];
            }
          }
        }
        rest
      else
        rest
  }

  /** A path that neither equals nor contains the working directory, and whose
      file is no larger than the directory string is long, is refused. */
  lemma SmallOutsiderRefused(wd: string, channel: bool, fs: FileFacts, target: string)
    requires var p := ScanPath(fs, channel, target);
      p.Ok? && p.value != wd && !Contains(p.value, wd) && fs.size(p.value).Ok? && fs.size(p.value).value <= |wd|
    ensures ValidateScanTargets(wd, channel, fs, [target]) == Err(HubConfiguration(OutsideWorkspaceMessage))
  {
  }

  /** A canonical path that cannot be computed ends the check with its
      exception, before anything is asked of the node. */
  lemma CanonicalFailureStops(wd: string, fs: FileFacts, target: string, rest: seq<string>)
    requires fs.canonical(target).Err?
    ensures ValidateScanTargets(wd, true, fs, [target] + rest) == Err(fs.canonical(target).error)
  {
    assert ([target] + rest)[0] == target;
  }

  /** Without a channel, a missing target is reported under its normalised
      name: "/ws/src/" is reported as "/ws/src". */
  lemma MissingTargetReportedNormalised(fs: FileFacts)
    requires fs.size("/ws/src").Ok? && fs.present("/ws/src") == Ok(false)
    ensures ValidateScanTargets("/ws", false, fs, ["/ws/src/"]) == Err(IOError(TargetMissingMessage + "/ws/src"))
  {
    WsSrcNormalised();
    ContainsInfix([], "/ws", "/src");
    assert [] + "/ws" + "/src" == "/ws/src";
    SingleTarget("/ws", false, fs, "/ws/src/");
  }

  lemma WsSrcNormalised()
    ensures NormalizePath("/ws/src/") == "/ws/src"
  {
    var p := "/ws/src/";
    assert forall i :: 0 <= i < |p| - 1 ==> p[i] != '/' || p[i + 1] != '/' by {
      assert p[0] == '/' && p[1] != '/' && p[2] != '/' && p[3] == '/' && p[4] != '/';
    }
    assert p[..|p| - 1] == "/ws/src";
  }

  // ------------------------------------------- confinement as evidently meant

  /** The workspace test the comment in perform (PostBuildHubiScan.java:170-171) and the message
      "Can not scan targets outside of the workspace." call for: the path is
      the working directory or lies below it. */
  predicate Confined(wd: string, path: string) {
    path == wd || StartsWith(path, wd + "/")
  }

  predicate AcceptedConfined(wd: string, channel: bool, fs: FileFacts, target: string) {
    var p := ScanPath(fs, channel, target);
    p.Ok? && Confined(wd, p.value) && fs.present(p.value) == Ok(true)
  }

  function RejectionConfined(wd: string, channel: bool, fs: FileFacts, target: string): Error {
    var p := ScanPath(fs, channel, target);
    if p.Err? then p.error
    else if !Confined(wd, p.value) then HubConfiguration(OutsideWorkspaceMessage)
    else if fs.present(p.value).Err? then fs.present(p.value).error
    else IOError(TargetMissingMessage + p.value)
  }

  /** validateScanTargets with the corrected workspace test. Every target it
      accepts lies in the workspace, and it still reports the first failure. */
  function ValidateScanTargetsConfined(wd: string, channel: bool, fs: FileFacts, targets: seq<string>): (r: Result<bool>)
    ensures r.Ok? ==> r.value
    ensures r.Ok? <==> forall t :: t in targets ==> AcceptedConfined(wd, channel, fs, t)
    ensures r.Err? ==>
      exists i :: 0 <= i < |targets|
        && !AcceptedConfined(wd, channel, fs, targets[i])
        && (forall j :: 0 <= j < i ==> AcceptedConfined(wd, channel, fs, targets[j]))
        && r.error == RejectionConfined(wd, channel, fs, targets[i])
  {
    if targets == [] then Ok(true)
    else if !AcceptedConfined(wd, channel, fs, targets[0]) then Err(RejectionConfined(wd, channel, fs, targets[0]))
    else
      var rest := ValidateScanTargetsConfined(wd, channel, fs, targets[1..]);
      assert forall t :: t in targets ==> t == targets[0] || t in targets[1..];
      if rest.Err? then
        var i :| 0 <= i < |targets[1..]|
          && !AcceptedConfined(wd, channel, fs, targets[1..][i])
          && (forall j :: 0 <= j < i ==> AcceptedConfined(wd, channel, fs, targets[1..][j]))
          && rest.error == RejectionConfined(wd, channel, fs, targets[1..][i]);
        assert forall j :: 0 <= j < i + 1 ==> AcceptedConfined(wd, channel, fs, targets[j]) by {
          forall j | 0 <= j < i + 1 ensures AcceptedConfined(wd, channel, fs, targets[j]) {
            if j > 0 {
              assert targets[j] == targets[1..][j - 1];
            }
          }
        }
        rest
      else
        rest
  }

  /** Every target the corrected check accepts lies in the workspace. */
  lemma ConfinedTargetsStayInWorkspace(wd: string, channel: bool, fs: FileFacts, targets: seq<string>, t: string)
    requires ValidateScanTargetsConfined(wd, channel, fs, targets).Ok? && t in targets
    ensures ScanPath(fs, channel, t).Ok?
    ensures Confined(wd, ScanPath(fs, channel, t).value)
    ensures StartsWith(ScanPath(fs, channel, t).value, wd)
  {
    assert AcceptedConfined(wd, channel, fs, t);
    var p := ScanPath(fs, channel, t).value;
    if p != wd {
      assert p[..|wd + "/"|] == wd + "/";
      assert p[..|wd|] == (wd + "/")[..|wd|];
    }
  }

  /** The working directory of the counterexamples. */
  const ExampleWorkspace := "/var/lib/jenkins/workspace/job"

  /** The node of the counterexamples: "<ws>/../../../../../etc/passwd"
      canonicalises to "/etc/passwd", a 4096-byte file, and "<ws>/link" is a
      symbolic link to "/backup<ws>", a 10-byte file. */
  function EscapeNode(): FileFacts {
    FileFacts(
      p => if p == ExampleWorkspace + "/../../../../../etc/passwd" then Ok("/etc/passwd")
           else if p == ExampleWorkspace + "/link" then Ok("/backup" + ExampleWorkspace)
           else Ok(p),
      p => if p == "/etc/passwd" then Ok(4096) else Ok(10),
      p => Ok(true))
  }

  /** A single target passes a check exactly when it is accepted. */
  lemma SingleTarget(wd: string, channel: bool, fs: FileFacts, t: string)
    ensures ValidateScanTargets(wd, channel, fs, [t]) == (if Accepted(wd, channel, fs, t) then Ok(true)
                                                           else Err(Rejection(wd, channel, fs, t)))
    ensures ValidateScanTargetsConfined(wd, channel, fs, [t]).Ok? <==> AcceptedConfined(wd, channel, fs, t)
  {
    assert [t][1..] == [];
  }

  /** As written, a target outside the workspace is accepted as soon as its
      file is larger than the working-directory string is long. */
  lemma LargeFileOutsideWorkspaceAccepted()
    ensures var target := ExampleWorkspace + "/../../../../../etc/passwd";
      && !Contains(ScanPath(EscapeNode(), true, target).value, ExampleWorkspace)
      && ValidateScanTargets(ExampleWorkspace, true, EscapeNode(), [target]) == Ok(true)
      && ValidateScanTargetsConfined(ExampleWorkspace, true, EscapeNode(), [target]).Err?
  {
    var target := ExampleWorkspace + "/../../../../../etc/passwd";
    PasswdOutside();
    assert ScanPath(EscapeNode(), true, target) == Ok("/etc/passwd");
    assert EscapeNode().size("/etc/passwd") == Ok(4096);
    assert Accepted(ExampleWorkspace, true, EscapeNode(), target);
    assert !AcceptedConfined(ExampleWorkspace, true, EscapeNode(), target);
    SingleTarget(ExampleWorkspace, true, EscapeNode(), target);
  }

  /** "/etc/passwd" neither contains nor lies below the example workspace. */
  lemma PasswdOutside()
    ensures !Contains("/etc/passwd", ExampleWorkspace) && !Confined(ExampleWorkspace, "/etc/passwd")
  {
    var p := "/etc/passwd";
    if Contains(p, ExampleWorkspace) {
      ContainsNeedsRoom(p, ExampleWorkspace);
    }
    assert p[1] != (ExampleWorkspace + "/")[1];
  }

  /** As written, a path that merely contains the working directory somewhere
      (here a link into another tree) is accepted. */
  lemma ContainedElsewhereAccepted()
    ensures var target := ExampleWorkspace + "/link";
      && !Confined(ExampleWorkspace, ScanPath(EscapeNode(), true, target).value)
      && ValidateScanTargets(ExampleWorkspace, true, EscapeNode(), [target]) == Ok(true)
      && ValidateScanTargetsConfined(ExampleWorkspace, true, EscapeNode(), [target]).Err?
  {
    var target := ExampleWorkspace + "/link";
    var p := "/backup" + ExampleWorkspace;
    assert ScanPath(EscapeNode(), true, target) == Ok(p);
    assert "/backup" + ExampleWorkspace + "" == p;
    ContainsInfix("/backup", ExampleWorkspace, "");
    assert p[1] != (ExampleWorkspace + "/")[1];
    assert Accepted(ExampleWorkspace, true, EscapeNode(), target);
    assert !AcceptedConfined(ExampleWorkspace, true, EscapeNode(), target);
    SingleTarget(ExampleWorkspace, true, EscapeNode(), target);
  }
}
